=== FILE: README.md ===
# Verified model of the OpenTelemetry FastAPI proof of concept

The service is almost all OpenTelemetry and FastAPI wiring. Three small pieces of sequential logic carry its behaviour, and this project models them in Dafny:

- **Endpoint conversion** (`Settings.get_grpc_endpoint`, and the copy of it in the standalone application's start-up code). It turns the OTLP collector address into the bare `host:port` that the gRPC exporters expect. The OpenTelemetry Protocol specification puts OTLP/HTTP on port 4318 and OTLP/gRPC on port 4317.
- **Request logging middleware** (`HTTPLoggingMiddleware`). For each request that is not skipped, `dispatch` makes one `logger.log` call, with a severity from the status code, a message and a structured `http` context. Whether that call writes a JSON line depends on the level `setup_logging` configured: with `LOG_LEVEL=WARNING` a 200 leaves no line (`RequestLogging.LevelFilterDropsRequests`).
- **JSON log formatter and logging set-up** (`JSONFormatter.format`, `setup_logging`). The formatter builds the JSON object for a record. `setup_logging` installs the formatter on the root logger.

Modules, one per concern:

| file | module | models |
|---|---|---|
| `wrappers.dfy` | `Wrappers` | `Option`, Python's `None` |
| `strings.dfy` | `Strings` | `str.startswith`, substring `in`, `str.endswith`, `str.replace` |
| `decimal.dfy` | `Decimal` | `str(int)` and the parser that inverts it |
| `levels.dfy` | `Levels` | the numeric levels of `logging` |
| `config.dfy` | `Config` | `Settings`, the `log_level` literal set, `get_grpc_endpoint` |
| `bootstrap.dfy` | `Bootstrap` | the inline endpoint conversion at start-up in `app/main.py` |
| `middleware.dfy` | `Middleware` | skip set, severity, message, context, `dispatch` |
| `values.dfy` | `Values` | Python values in a record, truthiness, `json.dumps(default=str)` coercion |
| `logging_config.dfy` | `LoggingConfig` | `JSONFormatter.format`, `setup_logging` |
| `request_logging.dfy` | `RequestLogging` | how the middleware's `extra` reaches the formatted line |

Everything is a pure function over immutable datatypes.

- `Settings` is a value, so `get_grpc_endpoint` cannot alter the stored `otel_exporter_otlp_endpoint`. The method only rewrites a local copy, and the model has that property by construction.
- `call_next` is a function argument `Request -> Response`.
- The measured duration, the rendered timestamp, the service name and the traceback renderer (`formatException`) are parameters.

`str.replace` is modelled exactly as Python runs it: left to right, non-overlapping, replacing every occurrence. So the conversion (src/config.py:67-70):

- removes every copy of the scheme present in the input, not only the one at the front. The removal is one left-to-right pass, so fragments can join into a new copy: `http://hthttp://tp://x` becomes `http://x` (`Config.SchemeCanReappear`);
- rewrites `:4318` inside longer ports too: `http://collector:43180` becomes `collector:43170` (`Config.LongerPortRewritten`);
- keeps any path or trailing `/`: `http://collector:4318/` becomes `collector:4317/` (`Config.ExampleTrailingSlash`).

The formatter always adds the `source` key (src/logging_config.py:50-54), whatever the record holds.

## Model

| member | source | states |
|---|---|---|
| `Strings.ReplaceAll` | src/config.py:68 | `str.replace` keeps the length when pattern and replacement have equal length; a shorter replacement never lengthens the string and a longer one never shortens it |
| `Strings.ReplaceAllAbsent` | src/config.py:68-70 | replacing a pattern that does not occur leaves the string unchanged |
| `Strings.ReplaceAllChangesIff` | src/config.py:68-70 | with a replacement different from the pattern, `replace` changes the string exactly when the pattern occurs in it |
| `Strings.ContainsSingleton` | src/config.py:74 | the substring test `":" in endpoint` is membership of the character `:` |
| `Strings.MissingCharNotContained` | src/config.py:67-70 | a string lacking one of the pattern's characters does not contain the pattern, so an address with no `/` after the scheme holds no second scheme |
| `Config.NormalizeEndpoint` | src/config.py:65-76 | with a scheme: the result is at least 7 characters shorter than the input and contains no `:4318`; without a scheme: the result contains `:`, is the input or the input followed by `:4317`, and equals the input exactly when the input already has a `:` |
| `Config.PortSwapPointwise` | src/config.py:68 | the `:4318`→`:4317` rewrite keeps the length and changes exactly the final `8` of every `:4318` to `7`, all other characters unchanged |
| `Config.PortSwapRemovesHttpPort` | src/config.py:68-70 | after the rewrite no `:4318` remains anywhere in the address |
| `Config.PortSwapWithoutHttpPort` | src/config.py:68 | an address without `:4318` is not touched by the port rewrite |
| `Config.PortSwapSinglePort` | src/config.py:68 | in `host:4318<digits>` with a single `:`, the port becomes `4317` and everything else, including trailing digits, is kept |
| `Config.SchemeUrl` | src/config.py:67-70 | for `http://` (or `https://`) followed by text in which that scheme does not occur again (a path or trailing `/` allowed), the scheme goes and only the port rewrite applies to the rest |
| `Config.SchemeWithoutPort` | src/config.py:67-70 | the scheme branches never append a port: `scheme://host` becomes `host` |
| `Config.SchemeWithHttpPort` | src/config.py:67-70 | `scheme://host:4318tail` becomes `host:4317tail` for both schemes, for any host and tail without `:` (a path included) |
| `Config.SchemeCanReappear` | src/config.py:67-68 | for every `x` without `:`, `http://hthttp://tp://x` becomes `http://x`: the one-pass removal can leave a scheme in the result |
| `Config.NoSchemeIdempotent` | src/config.py:71-74 | without a scheme the conversion produces no scheme and converting its result again changes nothing |
| `Config.SchemeWithoutPortNotIdempotent` | src/config.py:67-74 | for every host without `:`, the conversion is not idempotent: `http://host` becomes `host`, and a second conversion appends `:4317` |
| `Config.ExampleHttp` | src/config.py:67-68 | `http://collector:4318` becomes `collector:4317` |
| `Config.ExampleHttps` | src/config.py:69-70 | `https://collector:4318` becomes `collector:4317` |
| `Config.ExampleBareHost` | src/config.py:74 | `collector` becomes `collector:4317` |
| `Config.ExampleOtherPort` | src/config.py:74 | `collector:9999` is passed through unchanged |
| `Config.ExampleSchemeWithoutPort` | src/config.py:67-68 | `http://collector` becomes `collector`, with no port |
| `Config.ExampleTrailingSlash` | src/config.py:67-68 | `http://collector:4318/` becomes `collector:4317/`: a trailing `/` is kept |
| `Config.LongerPortRewritten` | src/config.py:68 | the rewrite is global, so `http://collector:43180` becomes `collector:43170` |
| `Config.DefaultGrpcEndpoint` | src/config.py:32-33 | the default endpoint `http://otel-collector:4318` converts to `otel-collector:4317` |
| `Bootstrap.OtlpEndpoint` | app/main.py:29-38 | the start-up endpoint is the `Config` conversion of the variable's value, or of `http://otel-collector:4318` when it is unset |
| `Bootstrap.AgreesWithSettings` | app/main.py:32-38 | the start-up copy of the conversion equals `Settings.get_grpc_endpoint` on every address |
| `Bootstrap.UnsetVariable` | app/main.py:29-38 | with `OTEL_EXPORTER_OTLP_ENDPOINT` unset the exporters get `otel-collector:4317` |
| `Middleware.NewMiddleware` | src/middleware.py:41 | the skip set is never empty; a non-empty set passed in is kept as it is, and otherwise the five defaults are used |
| `Middleware.DefaultSkipSet` | src/middleware.py:41-56 | `None` and an empty set both give `{/, /health, /docs, /redoc, /openapi.json}`; those paths are not logged and `/api` is |
| `Middleware.Severity` | src/middleware.py:85-93 | every integer status code gets one of ERROR, WARNING, INFO |
| `Middleware.SeverityFollowsStatusClass` | src/middleware.py:85-93 | for codes 100-599, ERROR iff a server-error class, WARNING iff a client-error class, INFO iff informational, successful or redirection (section 15 of RFC 9110) |
| `Middleware.SeverityOutsideClasses` | src/middleware.py:85-93 | codes of 600 and above are ERROR, codes below 100 are INFO |
| `Middleware.SeverityMonotone` | src/middleware.py:85-93 | a higher status code never gets a lower severity |
| `Middleware.Message` | src/middleware.py:87-93 | the message starts with `METHOD PATH - STATUS`, adds at most the longer note, and below 400 is exactly that headline with nothing appended |
| `Middleware.MessageNoteIff` | src/middleware.py:85-93 | the message ends with ` (Erro no servidor)` iff status ≥ 500, with ` (Erro do cliente)` iff 400 ≤ status < 500, and with a digit below 400 |
| `Middleware.MessageDeterminesStatus` | src/middleware.py:85-93 | for a fixed method and path, distinct status codes never give the same message |
| `Middleware.Context` | src/middleware.py:67-82 | the `http` context carries the request's method and path, the response status, the duration, the query text (`None` iff there are no parameters), the client host and the user agent (`unknown` when absent) |
| `Middleware.Dispatch` | src/middleware.py:55-102 | the downstream response is returned unchanged; a `logger.log` call is made iff the path is not skipped; its level, message, method, path, status, duration, query (`None` iff no parameters), client IP and user agent (`unknown` when absent) match the exchange |
| `Middleware.LoggedIndices` | src/middleware.py:55-56 | the positions of the requests whose path is not skipped: each such position once, in increasing order, and no other |
| `Middleware.Serve` | src/middleware.py:55-102 | over a run of requests each gets its downstream response, and the `logger.log` calls are, in order, exactly the entries `Dispatch` makes for the requests at `LoggedIndices`, with their level, message and context |
| `Decimal.NatToString` | src/middleware.py:87 | the status digits are non-empty decimal digits without a leading zero |
| `Decimal.IntToString` | src/middleware.py:87 | `str(status_code)` is non-empty and ends in a digit, so the INFO message ends in a digit |
| `Decimal.IntRoundTrip` | src/middleware.py:87 | the status text in the message parses back to the status code |
| `Decimal.IntToStringInjective` | src/middleware.py:87 | distinct status codes are written as distinct texts |
| `Values.Coerce` | src/logging_config.py:80 | what `json.dumps(default=str)` writes is always JSON-native, and native values are unchanged |
| `Values.OpaqueAsString` | src/logging_config.py:80 | a non-JSON object serialises exactly as its `str()` text |
| `Values.CoerceIdempotent` | src/logging_config.py:80 | coercing twice is coercing once |
| `Values.CoerceObject` | src/logging_config.py:80 | coercion of a mapping keeps its keys and coerces each value |
| `LoggingConfig.ExtraFields` | src/logging_config.py:58-70 | `extra` holds exactly the attributes neither ignored nor `_`-prefixed, with unchanged values |
| `LoggingConfig.ExtraPartition` | src/logging_config.py:66-70 | kept and dropped attributes are disjoint and together give back the whole record |
| `LoggingConfig.OtelKeysNeverExtra` | src/logging_config.py:58-70 | `otelTraceID`, `otelSpanID`, `otelTraceSampled`, `otelServiceName` never appear in `extra` |
| `LoggingConfig.ExtraIdempotent` | src/logging_config.py:66-70 | filtering an already filtered map changes nothing |
| `LoggingConfig.Format` | src/logging_config.py:35-77 | level, logger, message and source come from the record; `trace_id`/`span_id` present iff the record has `otelTraceID`/`otelSpanID`, with their values; `extra` present iff the filtered map is non-empty, and then equal to it; `exception` present iff `exc_info` is truthy, and then it is the rendered traceback of `exc_info`; `timestamp` and `service` are the supplied rendered time and service name |
| `LoggingConfig.Render` | src/logging_config.py:35-77 | `log_data` always has the six base keys, holding the timestamp, level, logger, message, service and source of the line; `trace_id`, `span_id` and `exception` hold the line's values when set |
| `LoggingConfig.RenderKeys` | src/logging_config.py:35-77 | `timestamp`, `level`, `logger`, `message`, `service`, `source` are always present and no other key than the four optional ones ever is |
| `LoggingConfig.RenderOptionalKeys` | src/logging_config.py:44-77 | each optional key is in the dictionary exactly when its field is set |
| `LoggingConfig.RenderExtra` | src/logging_config.py:72-73 | when present, `extra` is the filtered attribute map as an object |
| `LoggingConfig.FormatJson` | src/logging_config.py:80 | serialisation is total: the result is a JSON object of native values with the same keys as `log_data`, each value being the `default=str` coercion of the `log_data` value under that key |
| `LoggingConfig.OpaqueExtraBecomesString` | src/logging_config.py:66-80 | an extra attribute holding a non-JSON object reaches the line as its `str()` text |
| `LoggingConfig.LevelFromName` | src/logging_config.py:104 | the looked-up level is always one of the `logging` level numbers |
| `LoggingConfig.LevelFromNameIgnoresCase` | src/logging_config.py:104 | the level depends only on the upper-cased name |
| `LoggingConfig.UnknownNameIsInfo` | src/logging_config.py:104 | a name with no matching `logging` level attribute falls back to INFO |
| `LoggingConfig.SettingLevels` | src/config.py:38-42 | each allowed `log_level` value selects its own numeric level |
| `LoggingConfig.LowerCaseNames` | src/logging_config.py:104 | `debug` and `warning` select DEBUG and WARNING |
| `LoggingConfig.SetupLogging` | src/logging_config.py:93-113 | afterwards the root logger has exactly one handler, a stream handler with the JSON formatter; logger and handler share the named level; `uvicorn.access` is WARNING, `uvicorn.error` is INFO, other loggers keep their levels |
| `LoggingConfig.SetupIdempotent` | src/logging_config.py:96-109 | running the set-up twice gives the same state as running it once, so handlers never accumulate |
| `LoggingConfig.SetupForgetsPreviousRoot` | src/logging_config.py:96-109 | the root logger after set-up does not depend on the handlers or level it had before |
| `LoggingConfig.LevelNameRoundTrip` | src/logging_config.py:37 | the `levelname` of each of the six standard levels looks the level up again; an unnamed level's `Level n` name matches no level |
| `LoggingConfig.ParentName` | src/middleware.py:17 | a logger's parent name is a proper prefix of its name, ending just before its last `.`; a name without `.` has the root (`""`) as parent |
| `LoggingConfig.ParentAtOnlyDot` | src/middleware.py:17 | a name with exactly one `.` has the part before it as parent, so `src.middleware` sits under `src` |
| `LoggingConfig.Lineage` | src/middleware.py:17 | the loggers `getEffectiveLevel` consults, nearest first: every one is a non-empty prefix of the name |
| `LoggingConfig.InheritsRootLevel` | src/logging_config.py:105 | a logger with no level set on itself or any dotted ancestor has the root's level as its effective level |
| `LoggingConfig.EffectiveLevelFromLineage` | src/logging_config.py:105 | in every state the effective level is the root's or the level set on a logger of the lineage |
| `LoggingConfig.SetupThreshold` | src/logging_config.py:104-109 | after `setup_logging(level)`, any logger writes a JSON line exactly for calls at or above both the configured level and its effective level; with no level on its lineage and no uvicorn logger on it, the configured level alone decides; `uvicorn.access` also needs WARNING |
| `RequestLogging.ContextValue` | src/middleware.py:72-82 | the `http` dictionary carries the status code as an integer, and `query_params` is `null` iff there are no query parameters |
| `RequestLogging.EntryLine` | src/middleware.py:96-100 | the record of an entry formats to a line with its message, the name of its level, the logger `src.middleware` and its `http` context in `extra` |
| `RequestLogging.LoggedRequestLine` | src/middleware.py:96-100 | for a non-skipped request, the formatted line has the middleware's message, the level name of the status's severity, and an `extra` whose `http` entry is the request context with the response status |
| `RequestLogging.MiddlewareLineage` | src/middleware.py:17 | the module logger `src.middleware` has lineage `src.middleware`, `src`, with neither uvicorn logger on it |
| `RequestLogging.RequestLineWritten` | src/middleware.py:96-100 | after `setup_logging(level)` (src/otel.py:66), a non-skipped request writes a JSON line exactly when its severity reaches both the configured level and the effective level of `src.middleware`; when no level is set on `src.middleware` or `src`, exactly when it reaches the configured level |
| `RequestLogging.LevelFilterDropsRequests` | src/middleware.py:85-100 | in every state, with `LOG_LEVEL=WARNING` a line is written only for status ≥ 400 and with `LOG_LEVEL=ERROR` only for status ≥ 500; when no level is set on `src.middleware` or `src`, every such status is written |

## Left out

- OpenTelemetry SDK set-up is not modelled: providers, exporters, batching, instrumentors and the resource. These are calls into external libraries with no local logic.
- Pydantic environment and `.env` loading, and the `settings` singleton, are not modelled. `Settings` is built directly, and the start-up code takes the variable's value as an `Option`.
- The business endpoints are not modelled: `/`, `/simular-financiamento`, the outbound call, its 150.0 fallback and `time.sleep`. They are network calls with float latency.
- Wall-clock timing and `round(duration_ms, 2)` are not modelled; the duration is an opaque `real` parameter.
- The timestamp rendered from `record.created` is a parameter, because it depends on the clock and on float formatting.
- The traceback text from `formatException` is a function parameter, because it is library output.
- `record.getMessage()` (`msg % args`) is supplied as the record's `message`.
- Async dispatch and Starlette's `call_next` plumbing are not modelled; the downstream handler is a pure function of the request.
- `Middleware.Dispatch` does not model a downstream exception: if `call_next` raises (src/middleware.py:62), `dispatch` exits before `logger.log` and the request leaves no line. The model's handler always returns a response.
- `LoggingConfig.WritesJsonLine` models `isEnabledFor` and the root handler's level only. `logging.disable`, a logger's `disabled` flag, `propagate=False`, filters and handlers on intermediate loggers are not modelled; the application uses none of them.
- `LoggingConfig.ParentName` always cuts at the last `.`. Python's `_fixupParents` continues its search with `rfind(".", 0, i - 1)`, so after two consecutive dots it skips one level: `a..b` has `a.` above it, and `a` is reached only through an existing `a.` logger. Names with `..` are modelled as if every level were visited; the application's logger names contain no `..`.
- Stream-handler I/O is not modelled.
- The JSON text is not modelled: escaping, `ensure_ascii=False`, separators and key order. The model stops at the value tree `json.dumps` serialises. Downstream readers access keys by name.
- Mapping keys are strings in the model. Python's `json.dumps` raises `TypeError` on a dictionary key that is not a string, number, boolean or `None`, even with `default=str`, and raises `ValueError` on a circular reference. Neither can be expressed in the model.
- `LoggingConfig.Format` requires the standard attributes (`name`, `levelname`, `pathname`, `lineno`, `funcName`, `exc_info`) to be present. `logging` sets them on every record it creates.
- `Values.Value` models Python floats as `real`, so `NaN` and the infinities cannot be represented. With its default `allow_nan=True`, `json.dumps` writes them as the tokens `NaN`, `Infinity` and `-Infinity`, which are not JSON; and `NaN` is truthy. Neither behaviour is modelled, and the model's floats are all finite.
- `Values.Truthy` treats every non-native object as truthy. An object with its own `__bool__` or `__len__` could be falsy.
- `LoggingConfig.Upper` upper-cases ASCII letters only. Python's `str.upper` also maps other characters, for example the dotless `ı` to `I`.
- `LoggingConfig.LevelFromName` knows the `logging` level constants `DEBUG`, `INFO`, `WARNING`, `WARN`, `ERROR`, `CRITICAL`, `FATAL` and `NOTSET`. An upper-cased name that matches some other module attribute (`BASIC_FORMAT`) would make `setLevel` raise; this is not modelled.
- Header lookup is on the lower-case names the framework stores; case-insensitive matching is the framework's.
- The text of `str(request.query_params)` is supplied with the parameters.
- `Strings.ReplaceAll` requires a non-empty pattern. Every call site passes a non-empty literal, and Python's special case for an empty pattern is never reached.
- Creating the record is not modelled in full. `RequestLogging.EntryRecord` sets the logger name, `levelname`, `levelno` and the `http` key over the call-site attributes it is given, and `logging`'s refusal of an `extra` key that clashes with an existing attribute is a precondition of `RequestLogging.LoggedRequestLine`.

=== FILE: bootstrap.dfy ===
/**
  The module-level start-up code of the standalone application: it reads the
  collector address from the environment and converts it for the gRPC
  exporters with its own copy of the conversion in `Config`.
 */
module Bootstrap {
  import opened Wrappers
  import opened Strings
  import Config

  /**
    The exporter endpoint computed at start-up from the value of
    `OTEL_EXPORTER_OTLP_ENDPOINT` (`None` when the variable is unset).
   */
  function OtlpEndpoint(env: Option<string>): (r: string)
    ensures r == Config.NormalizeEndpoint(env.GetOr(Config.DefaultOtlpEndpoint))
  {
    var e := env.GetOr(Config.DefaultOtlpEndpoint);
    if "http://" <= e then
      ReplaceAll(ReplaceAll(e, "http://", ""), ":4318", ":4317")
    else if "https://" <= e then
      ReplaceAll(ReplaceAll(e, "https://", ""), ":4318", ":4317")
    else if ':' in e then e
    else e + ":4317"
  }

  /** The start-up copy agrees with `Settings.get_grpc_endpoint` on every address. */
  lemma AgreesWithSettings(s: Config.Settings)
    ensures OtlpEndpoint(Some(s.otlpEndpoint)) == s.GrpcEndpoint()
  {
  }

  /** With the variable unset, the exporters are pointed at `otel-collector:4317`. */
  lemma UnsetVariable()
    ensures OtlpEndpoint(None) == "otel-collector:4317"
  {
    Config.DefaultGrpcEndpoint();
    AgreesWithSettings(Config.DefaultSettings);
  }
}

=== FILE: config.dfy ===
/**
  Application settings and the conversion of the OTLP collector address into
  the bare `host:port` that the gRPC exporters expect. The OpenTelemetry
  Protocol specification puts OTLP/HTTP on port 4318 and OTLP/gRPC on 4317.
 */
module Config {
  import opened Strings
  import Levels

  /** The values the `log_level` setting may take. */
  datatype LogLevelName = DEBUG | INFO | WARNING | ERROR | CRITICAL {

    function Name(): string
    {
      match this
      case DEBUG => "DEBUG"
      case INFO => "INFO"
      case WARNING => "WARNING"
      case ERROR => "ERROR"
      case CRITICAL => "CRITICAL"
    }

    /** The numeric level `logging` attaches to this name. */
    function Level(): int
    {
      match this
      case DEBUG => Levels.Debug
      case INFO => Levels.Info
      case WARNING => Levels.Warning
      case ERROR => Levels.Error
      case CRITICAL => Levels.Critical
    }
  }

  const DefaultServiceName: string := "poc-fastapi-service"
  const DefaultOtlpEndpoint: string := "http://otel-collector:4318"

  const HttpScheme: string := "http://"
  const HttpsScheme: string := "https://"
  const HttpPort: string := ":4318"
  const GrpcPort: string := ":4317"

  /** The settings record; a value, so reading the endpoint never alters it. */
  datatype Settings = Settings(serviceName: string, otlpEndpoint: string, logLevel: LogLevelName) {

    /** `get_grpc_endpoint`: the stored endpoint, rewritten for the gRPC exporters. */
    function GrpcEndpoint(): string
    {
      NormalizeEndpoint(otlpEndpoint)
    }
  }

  const DefaultSettings: Settings := Settings(DefaultServiceName, DefaultOtlpEndpoint, INFO)

  predicate HasScheme(endpoint: string)
  {
    HttpScheme <= endpoint || HttpsScheme <= endpoint
  }

  /** `s.replace(":4318", ":4317")`. */
  function PortSwap(s: string): string
  {
    ReplaceAll(s, HttpPort, GrpcPort)
  }

  /**
    The body of `get_grpc_endpoint`. A string with a scheme loses every copy of
    that scheme present in it (the removal can join fragments into a new copy,
    see `SchemeCanReappear`) and has every `:4318` rewritten, and no port is
    appended; a
    string without a scheme is kept when it has a `:` and otherwise gets
    `:4317` appended.
   */
  function NormalizeEndpoint(endpoint: string): (r: string)
    ensures HasScheme(endpoint) ==> |r| <= |endpoint| - |HttpScheme| && !Contains(r, HttpPort)
    ensures !HasScheme(endpoint) ==> ':' in r && endpoint <= r && |r| <= |endpoint| + |GrpcPort|
    ensures !HasScheme(endpoint) ==> (r == endpoint <==> ':' in endpoint)
    ensures !HasScheme(endpoint) ==> r == endpoint || r == endpoint + GrpcPort
  {
    if HttpScheme <= endpoint then
      StripLeadingShortens(endpoint, HttpScheme);
      PortSwapRemovesHttpPort(ReplaceAll(endpoint, HttpScheme, ""));
      PortSwap(ReplaceAll(endpoint, HttpScheme, ""))
    else if HttpsScheme <= endpoint then
      StripLeadingShortens(endpoint, HttpsScheme);
      PortSwapRemovesHttpPort(ReplaceAll(endpoint, HttpsScheme, ""));
      PortSwap(ReplaceAll(endpoint, HttpsScheme, ""))
    else
      if ':' in endpoint then endpoint else endpoint + GrpcPort
  }

  /** `s[j:j+5] == ":4318"`, spelled out character by character. */
  predicate HttpPortAt(s: string, j: int)
  {
    0 <= j && j + 5 <= |s|
    && s[j] == ':' && s[j + 1] == '4' && s[j + 2] == '3' && s[j + 3] == '1' && s[j + 4] == '8'
  }

  lemma HttpPortAtIsOccurrence(s: string, j: int)
    ensures OccursAt(s, HttpPort, j) <==> HttpPortAt(s, j)
  {
    if HttpPortAt(s, j) {
      assert s[j..j + 5] == HttpPort;
    }
    if OccursAt(s, HttpPort, j) {
      assert s[j..j + 5][1] == s[j + 1];
    }
  }

  lemma HttpPortPrefix(s: string)
    ensures HttpPort <= s <==> HttpPortAt(s, 0)
  {
    if HttpPortAt(s, 0) {
      assert s[..5] == HttpPort;
    }
  }

  /** Reference definition of the port swap, one character at a time. */
  function SwappedChar(s: string, i: int): char
    requires 0 <= i < |s|
  {
    if HttpPortAt(s, i - 4) then '7' else s[i]
  }

  /**
    The port swap keeps the length and changes exactly the final `8` of every
    `:4318` into `7`. Occurrences of `:4318` cannot overlap, so the left-to-right
    scan of `str.replace` reaches all of them.
   */
  lemma {:induction false} PortSwapPointwise(s: string)
    ensures |PortSwap(s)| == |s|
    ensures forall i :: 0 <= i < |s| ==> PortSwap(s)[i] == SwappedChar(s, i)
    decreases |s|
  {
    HttpPortPrefix(s);
    if s == [] {
    } else if HttpPort <= s {
      PortSwapPointwise(s[5..]);
      forall i | 0 <= i < |s|
        ensures PortSwap(s)[i] == SwappedChar(s, i)
      {
        PointwiseAfterMatch(s, i);
      }
    } else {
      PortSwapPointwise(s[1..]);
      forall i | 0 <= i < |s|
        ensures PortSwap(s)[i] == SwappedChar(s, i)
      {
        PointwiseAfterMismatch(s, i);
      }
    }
  }

  /** Inductive step of `PortSwapPointwise` when `s` starts with `:4318`. */
  lemma PointwiseAfterMatch(s: string, i: int)
    requires HttpPortAt(s, 0) && 0 <= i < |s|
    requires |PortSwap(s[5..])| == |s| - 5
    requires forall k :: 0 <= k < |s| - 5 ==> PortSwap(s[5..])[k] == SwappedChar(s[5..], k)
    ensures PortSwap(s)[i] == SwappedChar(s, i)
  {
    HttpPortPrefix(s);
    var t := s[5..];
    var r := PortSwap(s);
    assert r == GrpcPort + PortSwap(t);
    if i >= 5 {
      assert r[i] == SwappedChar(t, i - 5);
      assert HttpPortAt(t, i - 9) <==> HttpPortAt(s, i - 4);
    }
  }

  /** Inductive step of `PortSwapPointwise` when `s` does not start with `:4318`. */
  lemma PointwiseAfterMismatch(s: string, i: int)
    requires s != [] && !HttpPortAt(s, 0) && 0 <= i < |s|
    requires |PortSwap(s[1..])| == |s| - 1
    requires forall k :: 0 <= k < |s| - 1 ==> PortSwap(s[1..])[k] == SwappedChar(s[1..], k)
    ensures PortSwap(s)[i] == SwappedChar(s, i)
  {
    HttpPortPrefix(s);
    var t := s[1..];
    var r := PortSwap(s);
    assert r == [s[0]] + PortSwap(t);
    if i > 0 {
      assert r[i] == SwappedChar(t, i - 1);
      assert HttpPortAt(t, i - 5) <==> HttpPortAt(s, i - 4);
    }
  }

  /** After the swap, `:4318` occurs nowhere, including inside longer ports such as `:43180`. */
  lemma PortSwapRemovesHttpPort(s: string)
    ensures !Contains(PortSwap(s), HttpPort)
  {
    var r := PortSwap(s);
    PortSwapPointwise(s);
    forall j | 0 <= j <= |r|
      ensures !OccursAt(r, HttpPort, j)
    {
      HttpPortAtIsOccurrence(r, j);
      if j + 5 <= |r| {
        assert SwappedChar(s, j) == r[j] && SwappedChar(s, j + 1) == r[j + 1];
        assert SwappedChar(s, j + 2) == r[j + 2] && SwappedChar(s, j + 3) == r[j + 3];
        assert SwappedChar(s, j + 4) == r[j + 4];
      }
    }
  }

  /** A string with no `:4318` is left alone by the swap. */
  lemma PortSwapWithoutHttpPort(s: string)
    requires !Contains(s, HttpPort)
    ensures PortSwap(s) == s
  {
    ReplaceAllAbsent(s, HttpPort, GrpcPort);
  }

  /**
    With one `:` in the whole string, placed right before `4318`, the swap turns
    that port into `4317` and keeps everything around it, even when more digits
    follow.
   */
  lemma PortSwapSinglePort(host: string, tail: string)
    requires ':' !in host && ':' !in tail
    ensures PortSwap(host + HttpPort + tail) == host + GrpcPort + tail
  {
    var s := host + HttpPort + tail;
    var expected := host + GrpcPort + tail;
    var n := |host|;
    forall k | 0 <= k < |s| && k != n
      ensures s[k] != ':'
    {
      if k < n {
        assert s[k] == host[k];
      } else if k < n + 5 {
        assert s[k] == HttpPort[k - n];
      } else {
        assert s[k] == tail[k - n - 5];
      }
    }
    PortSwapPointwise(s);
    forall i | 0 <= i < |s|
      ensures PortSwap(s)[i] == expected[i]
    {
      if i == n + 4 {
        assert HttpPortAt(s, n);
      }
    }
  }

  /**
    For `scheme://rest` where that scheme does not occur again in `rest`, only
    the leading scheme goes and the port swap applies to the rest; a path or a
    trailing `/` in `rest` is kept.
   */
  lemma SchemeUrl(rest: string)
    ensures !Contains(rest, HttpScheme) ==> NormalizeEndpoint(HttpScheme + rest) == PortSwap(rest)
    ensures !Contains(rest, HttpsScheme) ==> NormalizeEndpoint(HttpsScheme + rest) == PortSwap(rest)
  {
    var e := HttpScheme + rest;
    assert HttpScheme <= e;
    if !Contains(rest, HttpScheme) {
      StripScheme(HttpScheme, rest);
    }
    var f := HttpsScheme + rest;
    assert f[4] == 's';
    assert !(HttpScheme <= f);
    assert HttpsScheme <= f;
    if !Contains(rest, HttpsScheme) {
      StripScheme(HttpsScheme, rest);
    }
  }

  /** Removing every copy of a scheme from `scheme + rest` gives `rest` when the scheme does not recur. */
  lemma StripScheme(scheme: string, rest: string)
    requires scheme == HttpScheme || scheme == HttpsScheme
    requires !Contains(rest, scheme)
    ensures ReplaceAll(scheme + rest, scheme, "") == rest
  {
    ReplaceAllLeading(scheme, rest, "");
    ReplaceAllAbsent(rest, scheme, "");
    assert "" + rest == rest;
  }

  /** A string without `:` holds no scheme, neither at the front nor anywhere else. */
  lemma ColonFreeHasNoScheme(s: string)
    requires ':' !in s
    ensures !Contains(s, HttpScheme) && !Contains(s, HttpsScheme)
    ensures !HasScheme(s)
  {
    assert HttpScheme[4] == ':' && HttpsScheme[5] == ':';
    MissingCharNotContained(s, HttpScheme, ':');
    MissingCharNotContained(s, HttpsScheme, ':');
    assert !OccursAt(s, HttpScheme, 0) && !OccursAt(s, HttpsScheme, 0);
  }

  /** The scheme branches never append a port: `http://collector` becomes `collector`. */
  lemma SchemeWithoutPort(host: string)
    requires ':' !in host
    ensures NormalizeEndpoint(HttpScheme + host) == host
    ensures NormalizeEndpoint(HttpsScheme + host) == host
  {
    ColonFreeHasNoScheme(host);
    SchemeUrl(host);
    MissingCharNotContained(host, HttpPort, ':');
    PortSwapWithoutHttpPort(host);
  }

  /** `scheme://host:4318` becomes `host:4317`, and anything after the `8` without a `:` stays. */
  lemma SchemeWithHttpPort(host: string, tail: string)
    requires ':' !in host && ':' !in tail
    ensures NormalizeEndpoint(HttpScheme + host + HttpPort + tail) == host + GrpcPort + tail
    ensures NormalizeEndpoint(HttpsScheme + host + HttpPort + tail) == host + GrpcPort + tail
  {
    var hp := host + HttpPort + tail;
    SinglePortHasNoScheme(host, tail, HttpScheme);
    SinglePortHasNoScheme(host, tail, HttpsScheme);
    SchemeUrl(hp);
    PortSwapSinglePort(host, tail);
    SchemeBeforeSinglePort(HttpScheme, host, tail);
    SchemeBeforeSinglePort(HttpsScheme, host, tail);
  }

  lemma SchemeBeforeSinglePort(scheme: string, host: string, tail: string)
    ensures scheme + host + HttpPort + tail == scheme + (host + HttpPort + tail)
  {
  }

  /**
    In `host:4318tail` with no other `:`, the only `:` is followed by `4`, so
    no `://` and hence no scheme occurs.
   */
  lemma SinglePortHasNoScheme(host: string, tail: string, scheme: string)
    requires scheme == HttpScheme || scheme == HttpsScheme
    requires ':' !in host && ':' !in tail
    ensures !Contains(host + HttpPort + tail, scheme)
  {
    var hp := host + HttpPort + tail;
    var m := |scheme| - 3;
    assert scheme[m] == ':' && scheme[m + 1] == '/';
    forall i | 0 <= i <= |hp|
      ensures !OccursAt(hp, scheme, i)
    {
      if i + |scheme| <= |hp| {
        var k := i + m;
        if k == |host| {
          assert hp[k + 1] == HttpPort[1];
          assert hp[i..i + |scheme|][m + 1] != scheme[m + 1];
        } else {
          if k < |host| {
            assert hp[k] == host[k];
          } else if k < |host| + |HttpPort| {
            assert hp[k] == HttpPort[k - |host|];
          } else {
            assert hp[k] == tail[k - |host| - |HttpPort|];
          }
          assert hp[i..i + |scheme|][m] != scheme[m];
        }
      }
    }
  }

  /**
    The removal is a single left-to-right pass, so the fragments around a
    removed copy can join into a new scheme: `http://hthttp://tp://x` becomes
    `http://x`, which still has a scheme.
   */
  lemma SchemeCanReappear(x: string)
    requires ':' !in x
    ensures NormalizeEndpoint(HttpScheme + ("ht" + HttpScheme + "tp://" + x)) == HttpScheme + x
    ensures HasScheme(NormalizeEndpoint(HttpScheme + ("ht" + HttpScheme + "tp://" + x)))
  {
    var inner := "ht" + HttpScheme + "tp://" + x;
    var whole := HttpScheme + inner;
    SchemeFragmentsJoin(x);
    ReplaceAllLeading(HttpScheme, inner, "");
    assert ReplaceAll(whole, HttpScheme, "") == HttpScheme + x by {
      assert "" + (HttpScheme + x) == HttpScheme + x;
    }
    assert HttpScheme <= whole;
    SchemeAloneKeepsPort(x);
    assert HttpScheme <= HttpScheme + x;
  }

  /** Removing `http://` from `hthttp://tp://x` in one pass leaves `http://x`. */
  lemma SchemeFragmentsJoin(x: string)
    requires ':' !in x
    ensures ReplaceAll("ht" + HttpScheme + "tp://" + x, HttpScheme, "") == HttpScheme + x
  {
    var tail := "tp://" + x;
    var a := HttpScheme + tail;
    SchemeThenTail(tail);
    assert !(HttpScheme <= ['t'] + a) by {
      assert (['t'] + a)[0] != HttpScheme[0];
    }
    ReplaceAllSkip('t', a, HttpScheme, "");
    assert !(HttpScheme <= ['h'] + (['t'] + a)) by {
      assert (['h'] + (['t'] + a))[2] == 'h' != HttpScheme[2];
    }
    ReplaceAllSkip('h', ['t'] + a, HttpScheme, "");
    FragmentShapes(x);
  }

  lemma FragmentShapes(x: string)
    ensures "ht" + HttpScheme + "tp://" + x == ['h'] + (['t'] + (HttpScheme + ("tp://" + x)))
    ensures ['h'] + (['t'] + ("tp://" + x)) == HttpScheme + x
  {
  }

  /** `http://tp://x` loses its leading scheme and nothing else. */
  lemma SchemeThenTail(tail: string)
    requires |tail| >= 3 && tail[..3] == "tp:"
    requires forall k :: 3 <= k < |tail| ==> tail[k] != ':'
    ensures ReplaceAll(HttpScheme + tail, HttpScheme, "") == tail
  {
    assert tail[2] == tail[..3][2] == ':';
    forall k | 0 <= k < |tail| && k != 2
      ensures tail[k] != ':'
    {
      if k < 2 {
        assert tail[k] == tail[..3][k];
      }
    }
    ColonOnlyAt(tail, 2, HttpScheme);
    ReplaceAllAbsent(tail, HttpScheme, "");
    ReplaceAllLeading(HttpScheme, tail, "");
    assert "" + tail == tail;
  }

  /** `http://x` with no `:` in `x` holds no `:4318`, so the port swap leaves it alone. */
  lemma SchemeAloneKeepsPort(x: string)
    requires ':' !in x
    ensures PortSwap(HttpScheme + x) == HttpScheme + x
  {
    ColonOnlyAt(HttpScheme + x, 4, HttpPort);
    PortSwapWithoutHttpPort(HttpScheme + x);
  }

  /**
    A string whose only `:` is at index `c`, followed by `/` (or at the end when
    the pattern needs a digit), does not contain a pattern whose `:` sits
    elsewhere relative to what the string has around index `c`.
   */
  lemma ColonOnlyAt(s: string, c: nat, pat: string)
    requires pat == HttpScheme || pat == HttpPort
    requires c < |s| && s[c] == ':'
    requires forall k :: 0 <= k < |s| && k != c ==> s[k] != ':'
    requires pat == HttpScheme ==> c < 4
    requires pat == HttpPort ==> c + 1 < |s| && s[c + 1] == '/'
    ensures !Contains(s, pat)
  {
    var m := if pat == HttpScheme then 4 else 0;
    assert pat[m] == ':';
    forall i | 0 <= i <= |s|
      ensures !OccursAt(s, pat, i)
    {
      if i + |pat| <= |s| {
        if i + m == c {
          assert pat == HttpPort && s[i..i + |pat|][1] != pat[1];
        } else {
          assert s[i..i + |pat|][m] != pat[m];
        }
      }
    }
  }

  /** Appending the gRPC port to a string without `:` never produces a scheme. */
  lemma AppendedPortAddsNoScheme(e: string, scheme: string)
    requires scheme == HttpScheme || scheme == HttpsScheme
    requires !(scheme <= e) && ':' !in e
    ensures !(scheme <= e + GrpcPort)
  {
    var r := e + GrpcPort;
    var m := if scheme == HttpScheme then 4 else 5;
    assert scheme[m] == ':' && scheme[m + 1] == '/';
    if |r| >= |scheme| {
      if |e| > m {
        assert r[m] == e[m] != ':';
        assert r[..|scheme|][m] != scheme[m];
      } else if |e| < m {
        assert r[m] == GrpcPort[m - |e|] != ':';
        assert r[..|scheme|][m] != scheme[m];
      } else {
        assert r[m + 1] == '4';
        assert r[..|scheme|][m + 1] != scheme[m + 1];
      }
    }
  }

  /** Without a scheme the conversion is idempotent: its result is already a `host:port`. */
  lemma NoSchemeIdempotent(endpoint: string)
    requires !HasScheme(endpoint)
    ensures !HasScheme(NormalizeEndpoint(endpoint))
    ensures NormalizeEndpoint(NormalizeEndpoint(endpoint)) == NormalizeEndpoint(endpoint)
  {
    if ':' !in endpoint {
      AppendedPortAddsNoScheme(endpoint, HttpScheme);
      AppendedPortAddsNoScheme(endpoint, HttpsScheme);
    }
  }

  /** A string whose first character is not `h` has no scheme. */
  lemma NoSchemeWithoutLeadingH(e: string)
    requires |e| > 0 && e[0] != 'h'
    ensures !HasScheme(e)
  {
    if |e| >= |HttpScheme| {
      assert e[..|HttpScheme|][0] != HttpScheme[0];
    }
    if |e| >= |HttpsScheme| {
      assert e[..|HttpsScheme|][0] != HttpsScheme[0];
    }
  }

  /** `scheme://host:4318...` with a plain host, as one equation for concrete endpoints. */
  lemma HostWithHttpPort(endpoint: string, host: string, tail: string, expected: string)
    requires endpoint == HttpScheme + host + HttpPort + tail || endpoint == HttpsScheme + host + HttpPort + tail
    requires ':' !in host && ':' !in tail
    requires expected == host + GrpcPort + tail
    ensures NormalizeEndpoint(endpoint) == expected
  {
    SchemeWithHttpPort(host, tail);
  }

  /** `scheme://host` with a plain host, as one equation for concrete endpoints. */
  lemma HostWithoutPort(endpoint: string, host: string)
    requires endpoint == HttpScheme + host || endpoint == HttpsScheme + host
    requires ':' !in host
    ensures NormalizeEndpoint(endpoint) == host
  {
    SchemeWithoutPort(host);
  }

  /** A host without `:` has no scheme and gets the gRPC port appended. */
  lemma BareHost(host: string, expected: string)
    requires ':' !in host
    requires expected == host + GrpcPort
    ensures NormalizeEndpoint(host) == expected
  {
    ColonFreeHasNoScheme(host);
  }

  /**
    The conversion is not idempotent in general: `scheme://host` loses the
    scheme without gaining a port, so converting again appends `:4317`.
   */
  lemma SchemeWithoutPortNotIdempotent(host: string)
    requires ':' !in host
    ensures NormalizeEndpoint(HttpScheme + host) == host
    ensures NormalizeEndpoint(NormalizeEndpoint(HttpScheme + host)) == host + GrpcPort
  {
    SchemeWithoutPort(host);
    ColonFreeHasNoScheme(host);
  }

  /** `http://collector:4318` becomes `collector:4317`. */
  lemma ExampleHttp()
    ensures NormalizeEndpoint("http://collector:4318") == "collector:4317"
  {
    HostWithHttpPort("http://collector:4318", "collector", "", "collector:4317");
  }

  /** `https://collector:4318` becomes `collector:4317`. */
  lemma ExampleHttps()
    ensures NormalizeEndpoint("https://collector:4318") == "collector:4317"
  {
    HostWithHttpPort("https://collector:4318", "collector", "", "collector:4317");
  }

  /** `collector` becomes `collector:4317`. */
  lemma ExampleBareHost()
    ensures NormalizeEndpoint("collector") == "collector:4317"
  {
    BareHost("collector", "collector:4317");
  }

  /** `collector:9999` is passed through. */
  lemma ExampleOtherPort()
    ensures NormalizeEndpoint("collector:9999") == "collector:9999"
  {
    NoSchemeWithoutLeadingH("collector:9999");
    assert "collector:9999"[9] == ':';
  }

  /** `http://collector` becomes `collector`, with no port. */
  lemma ExampleSchemeWithoutPort()
    ensures NormalizeEndpoint("http://collector") == "collector"
  {
    HostWithoutPort("http://collector", "collector");
  }

  /** A trailing `/` survives: `http://collector:4318/` becomes `collector:4317/`. */
  lemma ExampleTrailingSlash()
    ensures NormalizeEndpoint("http://collector:4318/") == "collector:4317/"
  {
    HostWithHttpPort("http://collector:4318/", "collector", "/", "collector:4317/");
  }

  /** The replacement is global: a port `43180` becomes `43170`. */
  lemma LongerPortRewritten()
    ensures NormalizeEndpoint("http://collector:43180") == "collector:43170"
  {
    HostWithHttpPort("http://collector:43180", "collector", "0", "collector:43170");
  }

  /** With default settings the exporters are pointed at `otel-collector:4317`. */
  lemma DefaultGrpcEndpoint()
    ensures DefaultSettings.GrpcEndpoint() == "otel-collector:4317"
  {
    HostWithHttpPort(DefaultOtlpEndpoint, "otel-collector", "", "otel-collector:4317");
  }
}

=== FILE: decimal.dfy ===
/**
  Python's `str(n)` for an integer, as used when a status code is written into
  a log message, together with the parser that undoes it.
 */
module Decimal {

  predicate IsDigit(c: char)
  {
    '0' <= c <= '9'
  }

  function DigitChar(d: nat): (c: char)
    requires d < 10
    ensures IsDigit(c)
  {
    ('0' as int + d) as char
  }

  function DigitValue(c: char): (d: nat)
    requires IsDigit(c)
    ensures d < 10 && DigitChar(d) == c
  {
    (c as int - '0' as int) as nat
  }

  predicate AllDigits(s: string)
  {
    forall i :: 0 <= i < |s| ==> IsDigit(s[i])
  }

  /** Decimal digits of `n`, most significant first, without leading zeros. */
  function NatToString(n: nat): (s: string)
    ensures |s| > 0 && AllDigits(s)
    ensures s[0] == '0' ==> n == 0
    decreases n
  {
    if n < 10 then [DigitChar(n)] else NatToString(n / 10) + [DigitChar(n % 10)]
  }

  /** `str(i)`: a minus sign before the digits of `-i` for a negative `i`. */
  function IntToString(i: int): (s: string)
    ensures |s| > 0 && IsDigit(s[|s| - 1])
  {
    if i < 0 then "-" + NatToString(-i) else NatToString(i)
  }

  function ParseNat(s: string): nat
    requires AllDigits(s)
    decreases |s|
  {
    if s == [] then 0 else ParseNat(s[..|s| - 1]) * 10 + DigitValue(s[|s| - 1])
  }

  predicate IsIntLiteral(s: string)
  {
    if |s| > 0 && s[0] == '-' then AllDigits(s[1..]) else AllDigits(s)
  }

  /** Python's `int(s)` restricted to the literals `str` produces. */
  function ParseInt(s: string): int
    requires IsIntLiteral(s)
  {
    if |s| > 0 && s[0] == '-' then -(ParseNat(s[1..]) as int) else ParseNat(s)
  }

  lemma {:induction false} NatRoundTrip(n: nat)
    ensures ParseNat(NatToString(n)) == n
    decreases n
  {
    var s := NatToString(n);
    if n >= 10 {
      NatRoundTrip(n / 10);
      assert s[..|s| - 1] == NatToString(n / 10);
      assert DigitValue(s[|s| - 1]) == n % 10;
    }
  }

  /** Rendering an integer and parsing it back gives the integer: `int(str(i)) == i`. */
  lemma IntRoundTrip(i: int)
    ensures IsIntLiteral(IntToString(i))
    ensures ParseInt(IntToString(i)) == i
  {
    var s := IntToString(i);
    if i < 0 {
      var t := NatToString(-i);
      NatRoundTrip(-i);
      assert s == "-" + t && s[0] == '-' && s[1..] == t;
      assert ParseInt(s) == -(ParseNat(t) as int);
    } else {
      NatRoundTrip(i);
      assert IsDigit(s[0]) && s[0] != '-';
      assert ParseInt(s) == ParseNat(s);
    }
  }

  /** Distinct integers render differently. */
  lemma IntToStringInjective(i: int, j: int)
    requires IntToString(i) == IntToString(j)
    ensures i == j
  {
    IntRoundTrip(i);
    IntRoundTrip(j);
  }
}

=== FILE: levels.dfy ===
/** The numeric severities of Python's `logging` module. */
module Levels {

  const NotSet: int := 0
  const Debug: int := 10
  const Info: int := 20
  const Warning: int := 30
  const Error: int := 40
  const Critical: int := 50
}

=== FILE: logging_config.dfy ===
/**
  Structured JSON logging: the formatter that turns a log record into a JSON
  object, and `setup_logging`, which installs it on the root logger.
 */
module LoggingConfig {
  import opened Wrappers
  import opened Values
  import Levels
  import Config
  import Decimal

  /** A log record: its attribute dictionary `__dict__` and the rendered `getMessage()`. */
  datatype LogRecord = LogRecord(attrs: map<string, Value>, message: string)

  /** Attributes every record created by `logging` carries and the formatter reads. */
  const StandardAttrs: set<string> := {"name", "levelname", "pathname", "lineno", "funcName", "exc_info"}

  predicate WellFormed(rec: LogRecord)
  {
    StandardAttrs <= rec.attrs.Keys
  }

  /** Attributes that never go into `extra`. */
  const IgnoredKeys: set<string> := {
    "name", "msg", "args", "created", "filename", "funcName",
    "levelname", "levelno", "lineno", "module", "msecs",
    "message", "pathname", "process", "processName", "relativeCreated",
    "thread", "threadName", "exc_info", "exc_text", "stack_info",
    "otelTraceID", "otelSpanID", "otelTraceSampled", "otelServiceName"
  }

  /** The trace-context attributes the OpenTelemetry logging integration injects. */
  const OtelKeys: set<string> := {"otelTraceID", "otelSpanID", "otelTraceSampled", "otelServiceName"}

  /** Keys present in every formatted line. */
  const BaseKeys: set<string> := {"timestamp", "level", "logger", "message", "service", "source"}

  /** Keys that appear only under a condition. */
  const OptionalKeys: set<string> := {"trace_id", "span_id", "extra", "exception"}

  /** `key.startswith("_")`. */
  predicate Private(key: string)
  {
    |key| > 0 && key[0] == '_'
  }

  predicate KeptAsExtra(key: string)
  {
    key !in IgnoredKeys && !Private(key)
  }

  /** The attributes copied into `extra`, with their values. */
  function ExtraFields(attrs: map<string, Value>): (extra: map<string, Value>)
    ensures forall k :: k in extra <==> k in attrs && KeptAsExtra(k)
    ensures forall k :: k in extra ==> extra[k] == attrs[k]
  {
    map k | k in attrs && KeptAsExtra(k) :: attrs[k]
  }

  /** The attributes the filter drops. */
  function DroppedFields(attrs: map<string, Value>): map<string, Value>
  {
    map k | k in attrs && !KeptAsExtra(k) :: attrs[k]
  }

  /**
    The filter loses nothing silently: the kept and dropped attributes are
    disjoint and together make up the whole record.
   */
  lemma ExtraPartition(attrs: map<string, Value>)
    ensures ExtraFields(attrs).Keys !! DroppedFields(attrs).Keys
    ensures ExtraFields(attrs) + DroppedFields(attrs) == attrs
  {
  }

  /** The trace-context bookkeeping never shows up inside `extra`. */
  lemma OtelKeysNeverExtra(attrs: map<string, Value>)
    ensures OtelKeys !! ExtraFields(attrs).Keys
  {
  }

  /** Filtering an already filtered map changes nothing. */
  lemma ExtraIdempotent(attrs: map<string, Value>)
    ensures ExtraFields(ExtraFields(attrs)) == ExtraFields(attrs)
  {
  }

  /** `{"file": pathname, "line": lineno, "function": funcName}`. */
  function Source(attrs: map<string, Value>): Value
    requires {"pathname", "lineno", "funcName"} <= attrs.Keys
  {
    Obj(map["file" := attrs["pathname"], "line" := attrs["lineno"], "function" := attrs["funcName"]])
  }

  /** The fields of one formatted line; an absent optional key is `None`. */
  datatype LogLine = LogLine(
    timestamp: string,
    level: Value,
    logger: Value,
    message: string,
    service: string,
    traceId: Option<Value>,
    spanId: Option<Value>,
    source: Value,
    extra: Option<map<string, Value>>,
    exception: Option<string>)

  /**
    `JSONFormatter.format` up to the JSON text. The rendered timestamp, the
    service name and the traceback renderer (`formatException`) are supplied
    by the caller.
   */
  function Format(rec: LogRecord, timestamp: string, service: string, formatException: Value -> string)
    : (line: LogLine)
    requires WellFormed(rec)
    ensures line.level == rec.attrs["levelname"] && line.logger == rec.attrs["name"]
    ensures line.message == rec.message && line.source == Source(rec.attrs)
    ensures line.traceId.Some? <==> "otelTraceID" in rec.attrs
    ensures line.traceId.Some? ==> line.traceId.value == rec.attrs["otelTraceID"]
    ensures line.spanId.Some? <==> "otelSpanID" in rec.attrs
    ensures line.spanId.Some? ==> line.spanId.value == rec.attrs["otelSpanID"]
    ensures line.extra.Some? <==> ExtraFields(rec.attrs) != map[]
    ensures line.extra.Some? ==> line.extra.value == ExtraFields(rec.attrs)
    ensures line.timestamp == timestamp && line.service == service
    ensures line.exception.Some? <==> Truthy(rec.attrs["exc_info"])
    ensures line.exception.Some? ==> line.exception.value == formatException(rec.attrs["exc_info"])
  {
    var attrs := rec.attrs;
    var extra := ExtraFields(attrs);
    LogLine(
      timestamp,
      attrs["levelname"],
      attrs["name"],
      rec.message,
      service,
      if "otelTraceID" in attrs then Some(attrs["otelTraceID"]) else None,
      if "otelSpanID" in attrs then Some(attrs["otelSpanID"]) else None,
      Source(attrs),
      if extra != map[] then Some(extra) else None,
      if Truthy(attrs["exc_info"]) then Some(formatException(attrs["exc_info"])) else None)
  }

  /** `map[k := v]` when `o` holds `v`, `m` otherwise. */
  function PutOpt<V>(m: map<string, Value>, k: string, o: Option<V>, f: V -> Value): map<string, Value>
  {
    match o
    case Some(v) => m[k := f(v)]
    case None => m
  }

  /** The dictionary `log_data` that is serialised, built in the same order as the formatter. */
  function Render(line: LogLine): (data: map<string, Value>)
    ensures BaseKeys <= data.Keys
    ensures data["timestamp"] == Str(line.timestamp) && data["level"] == line.level
    ensures data["logger"] == line.logger && data["message"] == Str(line.message)
    ensures data["service"] == Str(line.service) && data["source"] == line.source
    ensures line.traceId.Some? ==> "trace_id" in data && data["trace_id"] == line.traceId.value
    ensures line.spanId.Some? ==> "span_id" in data && data["span_id"] == line.spanId.value
    ensures line.exception.Some? ==> "exception" in data && data["exception"] == Str(line.exception.value)
  {
    var base := map[
      "timestamp" := Str(line.timestamp),
      "level" := line.level,
      "logger" := line.logger,
      "message" := Str(line.message),
      "service" := Str(line.service)];
    var withTrace := PutOpt(base, "trace_id", line.traceId, (v: Value) => v);
    var withSpan := PutOpt(withTrace, "span_id", line.spanId, (v: Value) => v);
    var withSource := withSpan["source" := line.source];
    var withExtra := PutOpt(withSource, "extra", line.extra, (m: map<string, Value>) => Obj(m));
    PutOpt(withExtra, "exception", line.exception, (t: string) => Str(t))
  }

  /** The fixed keys are always present, and nothing outside the known keys ever is. */
  lemma RenderKeys(line: LogLine)
    ensures BaseKeys <= Render(line).Keys <= BaseKeys + OptionalKeys
  {
  }

  /** Each optional key is present exactly when its field is. */
  lemma RenderOptionalKeys(line: LogLine)
    ensures "trace_id" in Render(line) <==> line.traceId.Some?
    ensures "span_id" in Render(line) <==> line.spanId.Some?
    ensures "extra" in Render(line) <==> line.extra.Some?
    ensures "exception" in Render(line) <==> line.exception.Some?
  {
  }

  /** `extra`, when present, is the filtered attribute map as an object. */
  lemma RenderExtra(line: LogLine)
    requires line.extra.Some?
    ensures "extra" in Render(line) && Render(line)["extra"] == Obj(line.extra.value)
  {
  }

  /**
    What `json.dumps(log_data, default=str)` writes, as a value tree: always a
    JSON object of native values, whatever the record's attributes hold.
   */
  function FormatJson(rec: LogRecord, timestamp: string, service: string, formatException: Value -> string)
    : (v: Value)
    requires WellFormed(rec)
    ensures Native(v) && v.Obj?
    ensures v.fields.Keys == Render(Format(rec, timestamp, service, formatException)).Keys
    ensures forall k :: k in v.fields ==> v.fields[k] == Coerce(Render(Format(rec, timestamp, service, formatException))[k])
  {
    var data := Render(Format(rec, timestamp, service, formatException));
    CoerceObject(data);
    Coerce(Obj(data))
  }

  /** An attribute holding a non-native object reaches the line as its `str()` text. */
  lemma OpaqueExtraBecomesString(rec: LogRecord, timestamp: string, service: string,
                                 formatException: Value -> string, key: string, text: string)
    requires WellFormed(rec)
    requires key in rec.attrs && KeptAsExtra(key) && rec.attrs[key] == Opaque(text)
    ensures var out := FormatJson(rec, timestamp, service, formatException).fields;
      && "extra" in out && out["extra"].Obj?
      && key in out["extra"].fields && out["extra"].fields[key] == Str(text)
  {
    var line := Format(rec, timestamp, service, formatException);
    var extra := ExtraFields(rec.attrs);
    assert key in extra && extra[key] == Opaque(text);
    assert line.extra == Some(extra);
    assert FormatJson(rec, timestamp, service, formatException) == Coerce(Obj(Render(line)));
    ExtraReachesJson(line, extra);
    OpaqueEntryCoerced(extra, key, text);
  }

  /** Coercing an object turns its non-native entry into that entry's `str()` text. */
  lemma OpaqueEntryCoerced(m: map<string, Value>, key: string, text: string)
    requires key in m && m[key] == Opaque(text)
    ensures Coerce(Obj(m)).Obj? && key in Coerce(Obj(m)).fields && Coerce(Obj(m)).fields[key] == Str(text)
  {
  }

  /** The serialised `extra` entry is the coerced filtered attribute map. */
  lemma ExtraReachesJson(line: LogLine, extra: map<string, Value>)
    requires line.extra == Some(extra)
    ensures var out := Coerce(Obj(Render(line))).fields;
      "extra" in out && out["extra"] == Coerce(Obj(extra))
  {
    var data := Render(line);
    RenderExtra(line);
    CoerceObject(data);
  }

  /** Handlers on a logger; the ones present before set-up are arbitrary. */
  datatype Formatter = JsonFormatter | OtherFormatter(description: string)

  datatype Handler = StreamHandler(level: int, formatter: Formatter) | OtherHandler(description: string, level: int)

  datatype Logger = Logger(level: int, handlers: seq<Handler>)

  /** The root logger and the levels of named loggers. */
  datatype LoggingState = LoggingState(root: Logger, levels: map<string, int>)

  const UvicornAccess: string := "uvicorn.access"
  const UvicornError: string := "uvicorn.error"

  /** ASCII `str.upper()` for one character. */
  function UpperChar(c: char): char
  {
    if 'a' <= c <= 'z' then (c as int - 32) as char else c
  }

  function Upper(s: string): (u: string)
    ensures |u| == |s|
    ensures forall i :: 0 <= i < |s| ==> u[i] == UpperChar(s[i])
  {
    seq(|s|, i requires 0 <= i < |s| => UpperChar(s[i]))
  }

  /** The level constants of the `logging` module, looked up by attribute name. */
  function LevelAttribute(name: string): Option<int>
  {
    if name == "CRITICAL" || name == "FATAL" then Some(Levels.Critical)
    else if name == "ERROR" then Some(Levels.Error)
    else if name == "WARNING" || name == "WARN" then Some(Levels.Warning)
    else if name == "INFO" then Some(Levels.Info)
    else if name == "DEBUG" then Some(Levels.Debug)
    else if name == "NOTSET" then Some(Levels.NotSet)
    else None
  }

  /** `getattr(logging, level.upper(), logging.INFO)`. */
  function LevelFromName(name: string): (level: int)
    ensures level in {Levels.NotSet, Levels.Debug, Levels.Info, Levels.Warning, Levels.Error, Levels.Critical}
  {
    LevelAttribute(Upper(name)).GetOr(Levels.Info)
  }

  /** Upper-casing is idempotent, so the level lookup ignores case. */
  lemma LevelFromNameIgnoresCase(name: string)
    ensures LevelFromName(Upper(name)) == LevelFromName(name)
  {
    assert Upper(Upper(name)) == Upper(name);
  }

  /** A name with no matching level attribute falls back to INFO. */
  lemma UnknownNameIsInfo(name: string)
    requires LevelAttribute(Upper(name)).None?
    ensures LevelFromName(name) == Levels.Info
  {
  }

  /** Each value the `log_level` setting allows selects its own level. */
  lemma SettingLevels(l: Config.LogLevelName)
    ensures LevelFromName(l.Name()) == l.Level()
  {
    assert Upper(l.Name()) == l.Name();
  }

  /** Lower-case spellings select the same levels. */
  lemma LowerCaseNames()
    ensures LevelFromName("debug") == Levels.Debug
    ensures LevelFromName("warning") == Levels.Warning
  {
    assert Upper("debug") == "DEBUG";
    assert Upper("warning") == "WARNING";
  }

  /**
    `setup_logging`: the root logger's handlers are replaced by one stream
    handler with the JSON formatter, logger and handler share the level named
    by `level`, the two uvicorn loggers get fixed levels and every other named
    logger keeps its level.
   */
  function SetupLogging(st: LoggingState, level: string): (st': LoggingState)
    ensures st'.root.level == LevelFromName(level)
    ensures st'.root.handlers == [StreamHandler(st'.root.level, JsonFormatter)]
    ensures st'.levels.Keys == st.levels.Keys + {UvicornAccess, UvicornError}
    ensures st'.levels[UvicornAccess] == Levels.Warning && st'.levels[UvicornError] == Levels.Info
    ensures forall n :: n in st.levels && n != UvicornAccess && n != UvicornError ==> st'.levels[n] == st.levels[n]
  {
    var lvl := LevelFromName(level);
    var root := Logger(lvl, [StreamHandler(lvl, JsonFormatter)]);
    LoggingState(root, st.levels[UvicornAccess := Levels.Warning][UvicornError := Levels.Info])
  }

  /** Running the set-up twice leaves the same state as running it once: no duplicate handlers. */
  lemma SetupIdempotent(st: LoggingState, level: string)
    ensures SetupLogging(SetupLogging(st, level), level) == SetupLogging(st, level)
  {
  }

  /** The root logger after set-up does not depend on what it held before. */
  lemma SetupForgetsPreviousRoot(st1: LoggingState, st2: LoggingState, level: string)
    ensures SetupLogging(st1, level).root == SetupLogging(st2, level).root
  {
  }

  /** `logging.getLevelName(level)` for a number: the level's name, or `Level n` for an unnamed one. */
  function LevelName(level: int): string
  {
    if level == Levels.Critical then "CRITICAL"
    else if level == Levels.Error then "ERROR"
    else if level == Levels.Warning then "WARNING"
    else if level == Levels.Info then "INFO"
    else if level == Levels.Debug then "DEBUG"
    else if level == Levels.NotSet then "NOTSET"
    else "Level " + Decimal.IntToString(level)
  }

  /** Each named level's name looks up that level again, and an unnamed level has no attribute. */
  lemma LevelNameRoundTrip(level: int)
    ensures level in {Levels.NotSet, Levels.Debug, Levels.Info, Levels.Warning, Levels.Error, Levels.Critical}
      ==> LevelAttribute(LevelName(level)) == Some(level) && LevelFromName(LevelName(level)) == level
    ensures level !in {Levels.NotSet, Levels.Debug, Levels.Info, Levels.Warning, Levels.Error, Levels.Critical}
      ==> LevelAttribute(LevelName(level)).None?
  {
    var n := LevelName(level);
    if level in {Levels.NotSet, Levels.Debug, Levels.Info, Levels.Warning, Levels.Error, Levels.Critical} {
      assert Upper(n) == n;
    } else {
      assert n[0] == 'L' && n[5] == ' ';
    }
  }

  /** The dotted name of a logger's parent: everything before the last `.`, or `""` for the root. */
  function ParentName(name: string): (p: string)
    ensures p <= name
    ensures name != [] ==> |p| < |name|
    ensures '.' in name ==> p + "." <= name && '.' !in name[|p| + 1..]
    ensures '.' !in name ==> p == []
  {
    if name == [] then []
    else if name[|name| - 1] == '.' then name[..|name| - 1]
    else
      var p := ParentName(name[..|name| - 1]);
      assert name == name[..|name| - 1] + [name[|name| - 1]];
      p
  }

  /** A name with a single `.` has the part before it as parent. */
  lemma ParentAtOnlyDot(name: string, i: nat)
    requires i < |name| && name[i] == '.'
    requires forall k :: 0 <= k < |name| && k != i ==> name[k] != '.'
    ensures ParentName(name) == name[..i]
  {
  }

  /** The loggers `getEffectiveLevel()` consults for `name`, nearest first: itself and its ancestors. */
  function Lineage(name: string): (ls: seq<string>)
    ensures forall i :: 0 <= i < |ls| ==> ls[i] != [] && ls[i] <= name
    decreases |name|
  {
    if name == [] then [] else [name] + Lineage(ParentName(name))
  }

  /**
    `getEffectiveLevel()` of the logger called `name`: the first level that is
    set (not NOTSET) on the logger or one of its ancestors, otherwise the root's.
   */
  function EffectiveLevel(st: LoggingState, name: string): int
    decreases |name|
  {
    if name == [] then st.root.level
    else if name in st.levels && st.levels[name] != Levels.NotSet then st.levels[name]
    else EffectiveLevel(st, ParentName(name))
  }

  /** No logger on the lineage of `name` has a level of its own. */
  predicate NoLevelOnAncestors(st: LoggingState, name: string)
  {
    forall n :: n in Lineage(name) && n in st.levels ==> st.levels[n] == Levels.NotSet
  }

  /** A logger with no level on itself or any ancestor inherits the root's level. */
  lemma {:induction false} InheritsRootLevel(st: LoggingState, name: string)
    ensures NoLevelOnAncestors(st, name) ==> EffectiveLevel(st, name) == st.root.level
    decreases |name|
  {
    if name != [] && NoLevelOnAncestors(st, name) {
      var p := ParentName(name);
      assert Lineage(name) == [name] + Lineage(p);
      forall n | n in Lineage(p) && n in st.levels
        ensures st.levels[n] == Levels.NotSet
      {
        assert n in Lineage(name);
      }
      InheritsRootLevel(st, p);
    }
  }

  /**
    Otherwise the effective level is the root's or the level set on one of
    the loggers of the lineage: no other level can take effect.
   */
  lemma {:induction false} EffectiveLevelFromLineage(st: LoggingState, name: string)
    ensures EffectiveLevel(st, name) == st.root.level
      || exists n :: n in Lineage(name) && LevelSetOn(st, n) && st.levels[n] == EffectiveLevel(st, name)
    decreases |name|
  {
    if name != [] {
      var p := ParentName(name);
      assert Lineage(name) == [name] + Lineage(p);
      if !LevelSetOn(st, name) {
        assert EffectiveLevel(st, name) == EffectiveLevel(st, p);
        EffectiveLevelFromLineage(st, p);
        if EffectiveLevel(st, p) != st.root.level {
          var n :| n in Lineage(p) && LevelSetOn(st, n) && st.levels[n] == EffectiveLevel(st, p);
          assert n in Lineage(name);
        }
      }
    }
  }

  /** The logger called `name` has a level of its own. */
  predicate LevelSetOn(st: LoggingState, name: string)
  {
    name in st.levels && st.levels[name] != Levels.NotSet
  }

  /**
    `logging.getLogger(name).log(level, ...)` writes a JSON line: the level
    passes the logger's effective level (`isEnabledFor`), and a stream handler
    of the root with the JSON formatter accepts it by its own level.
   */
  predicate WritesJsonLine(st: LoggingState, name: string, level: int)
  {
    && level >= EffectiveLevel(st, name)
    && exists i :: 0 <= i < |st.root.handlers| && JsonHandlerAccepts(st.root.handlers[i], level)
  }

  /** A stream handler with the JSON formatter whose level lets `level` through. */
  predicate JsonHandlerAccepts(h: Handler, level: int)
  {
    h.StreamHandler? && h.formatter == JsonFormatter && level >= h.level
  }

  /**
    After `setup_logging(level)` a call writes a JSON line exactly when it
    reaches both the configured level (the handler's) and the logger's
    effective level. For a logger with no level on its lineage, outside the
    uvicorn loggers, that is the configured level alone; `uvicorn.access`
    also needs WARNING.
   */
  lemma SetupThreshold(st: LoggingState, level: string, name: string, callLevel: int)
    ensures var st' := SetupLogging(st, level);
      WritesJsonLine(st', name, callLevel)
      <==> callLevel >= LevelFromName(level) && callLevel >= EffectiveLevel(st', name)
    ensures NoLevelOnAncestors(st, name) && UvicornAccess !in Lineage(name) && UvicornError !in Lineage(name)
      ==> (WritesJsonLine(SetupLogging(st, level), name, callLevel) <==> callLevel >= LevelFromName(level))
    ensures WritesJsonLine(SetupLogging(st, level), UvicornAccess, callLevel)
      <==> callLevel >= LevelFromName(level) && callLevel >= Levels.Warning
  {
    var st' := SetupLogging(st, level);
    if callLevel >= LevelFromName(level) {
      assert JsonHandlerAccepts(st'.root.handlers[0], callLevel);
    }
    if NoLevelOnAncestors(st, name) && UvicornAccess !in Lineage(name) && UvicornError !in Lineage(name) {
      forall n | n in Lineage(name) && n in st'.levels
        ensures st'.levels[n] == Levels.NotSet
      {
      }
      InheritsRootLevel(st', name);
    }
    assert EffectiveLevel(st', UvicornAccess) == Levels.Warning;
  }
}

=== FILE: middleware.dfy ===
/**
  The HTTP request-logging middleware: a skip set of paths chosen at
  construction, and per request the decision whether to log, the severity
  taken from the status code, the message and the structured `http` context.
  The downstream handler (`call_next`) is a function from request to response
  and the measured duration is a parameter.
 */
module Middleware {
  import opened Wrappers
  import opened Strings
  import Decimal
  import Levels

  /** Paths that are never logged unless a non-empty set is configured. */
  const DefaultSkipPaths: set<string> := {"/", "/health", "/docs", "/redoc", "/openapi.json"}

  const Unknown: string := "unknown"
  const ServerErrorNote: string := " (Erro no servidor)"
  const ClientErrorNote: string := " (Erro do cliente)"

  datatype HttpLoggingMiddleware = HttpLoggingMiddleware(skipPaths: set<string>)

  /** The peer address the server saw. */
  datatype Client = Client(host: string, port: int)

  /** The parsed query parameters and their rendering `str(request.query_params)`. */
  datatype QueryParams = QueryParams(items: seq<(string, string)>, text: string)

  /** A request; header names are the lower-case keys the framework looks up. */
  datatype Request = Request(
    httpMethod: string,
    path: string,
    query: QueryParams,
    client: Option<Client>,
    headers: map<string, string>)

  datatype Response = Response(statusCode: int, body: string)

  /** The `http` mapping passed to the logger as `extra`. */
  datatype HttpContext = HttpContext(
    httpMethod: string,
    path: string,
    queryParams: Option<string>,
    statusCode: int,
    durationMs: real,
    clientIp: string,
    userAgent: string)

  /** One call of `logger.log(level, message, extra={"http": ...})`. */
  datatype LogEntry = LogEntry(level: int, message: string, http: HttpContext)

  /**
    `__init__`: `skip_paths or {defaults}`. Both a missing and an empty set are
    falsy, so the resulting skip set is never empty: an empty set cannot be
    used to log every path.
   */
  function NewMiddleware(skipPaths: Option<set<string>>): (mw: HttpLoggingMiddleware)
    ensures mw.skipPaths != {}
    ensures mw.skipPaths == DefaultSkipPaths || Some(mw.skipPaths) == skipPaths
    ensures skipPaths.Some? && skipPaths.value != {} ==> mw.skipPaths == skipPaths.value
  {
    match skipPaths
    case Some(paths) => if paths != {} then HttpLoggingMiddleware(paths) else HttpLoggingMiddleware(DefaultSkipPaths)
    case None => HttpLoggingMiddleware(DefaultSkipPaths)
  }

  /** The severity chosen from the status code; every integer gets one. */
  function Severity(status: int): (level: int)
    ensures level == Levels.Error || level == Levels.Warning || level == Levels.Info
  {
    if status >= 500 then Levels.Error
    else if status >= 400 then Levels.Warning
    else Levels.Info
  }

  /** The status classes of section 15 of RFC 9110, by the first digit of a three-digit code. */
  datatype StatusClass = Informational | Successful | Redirection | ClientError | ServerError

  function ClassOf(status: int): Option<StatusClass>
  {
    if status < 100 || status > 599 then None
    else if status < 200 then Some(Informational)
    else if status < 300 then Some(Successful)
    else if status < 400 then Some(Redirection)
    else if status < 500 then Some(ClientError)
    else Some(ServerError)
  }

  /**
    Within the range RFC 9110 defines, server errors and only they are logged
    as errors, client errors and only they as warnings, and everything else
    as information.
   */
  lemma SeverityFollowsStatusClass(status: int)
    requires ClassOf(status).Some?
    ensures Severity(status) == Levels.Error <==> ClassOf(status) == Some(ServerError)
    ensures Severity(status) == Levels.Warning <==> ClassOf(status) == Some(ClientError)
    ensures Severity(status) == Levels.Info <==> ClassOf(status).value in {Informational, Successful, Redirection}
  {
  }

  /** Codes outside the classes still get a severity: 600 and above are errors, below 100 information. */
  lemma SeverityOutsideClasses(status: int)
    requires ClassOf(status).None?
    ensures status >= 600 ==> Severity(status) == Levels.Error
    ensures status < 100 ==> Severity(status) == Levels.Info
  {
  }

  /** A higher status code never gets a lower severity. */
  lemma SeverityMonotone(a: int, b: int)
    requires a <= b
    ensures Severity(a) <= Severity(b)
  {
  }

  /** The note that follows the status in the message. */
  function Note(level: int): string
  {
    if level == Levels.Error then ServerErrorNote
    else if level == Levels.Warning then ClientErrorNote
    else ""
  }

  /** `"METHOD PATH - STATUS"`. */
  function Headline(httpMethod: string, path: string, status: int): string
  {
    httpMethod + " " + path + " - " + Decimal.IntToString(status)
  }

  /** The message: the headline followed by the note for the severity. */
  function Message(httpMethod: string, path: string, status: int): (m: string)
    ensures Headline(httpMethod, path, status) <= m
    ensures |m| - |Headline(httpMethod, path, status)| <= |ServerErrorNote|
    ensures status < 400 ==> |m| == |Headline(httpMethod, path, status)|
  {
    Headline(httpMethod, path, status) + Note(Severity(status))
  }

  /**
    The message ends with the server-error note exactly for status 500 and
    above, with the client-error note exactly for 400 to 499, and with the
    status digits otherwise.
   */
  lemma MessageNoteIff(httpMethod: string, path: string, status: int)
    ensures EndsWith(Message(httpMethod, path, status), ServerErrorNote) <==> status >= 500
    ensures EndsWith(Message(httpMethod, path, status), ClientErrorNote) <==> 400 <= status < 500
    ensures status < 400 ==> Decimal.IsDigit(Message(httpMethod, path, status)[|Message(httpMethod, path, status)| - 1])
  {
    var h := Headline(httpMethod, path, status);
    var digits := Decimal.IntToString(status);
    assert h[|h| - 1] == digits[|digits| - 1];
    if status >= 500 {
      ServerNoteEnding(h);
    } else if status >= 400 {
      ClientNoteEnding(h);
    } else {
      assert h + "" == h;
      DigitEnding(h);
    }
  }

  /**
    For a fixed method and path, the message determines the status code:
    distinct codes are never logged with the same message.
   */
  lemma MessageDeterminesStatus(httpMethod: string, path: string, a: int, b: int)
    requires Message(httpMethod, path, a) == Message(httpMethod, path, b)
    ensures a == b
  {
    MessageNoteIff(httpMethod, path, a);
    MessageNoteIff(httpMethod, path, b);
    assert Severity(a) == Severity(b);
    var m := Message(httpMethod, path, a);
    var n := Note(Severity(a));
    var ha := Headline(httpMethod, path, a);
    var hb := Headline(httpMethod, path, b);
    assert ha == m[..|m| - |n|] == hb;
    var prefix := httpMethod + " " + path + " - ";
    assert Decimal.IntToString(a) == ha[|prefix|..] == hb[|prefix|..] == Decimal.IntToString(b);
    Decimal.IntToStringInjective(a, b);
  }

  lemma ServerNoteEnding(h: string)
    ensures EndsWith(h + ServerErrorNote, ServerErrorNote)
    ensures !EndsWith(h + ServerErrorNote, ClientErrorNote)
  {
    var m := h + ServerErrorNote;
    assert m[|m| - |ServerErrorNote|..] == ServerErrorNote;
    assert m[|m| - |ClientErrorNote|..][0] == ServerErrorNote[1] != ClientErrorNote[0];
  }

  lemma ClientNoteEnding(h: string)
    requires |h| > 0 && Decimal.IsDigit(h[|h| - 1])
    ensures EndsWith(h + ClientErrorNote, ClientErrorNote)
    ensures !EndsWith(h + ClientErrorNote, ServerErrorNote)
  {
    var m := h + ClientErrorNote;
    assert m[|m| - |ClientErrorNote|..] == ClientErrorNote;
    assert |m| >= |ServerErrorNote| ==> m[|m| - |ServerErrorNote|..][1] == ClientErrorNote[0] != ServerErrorNote[1];
  }

  lemma DigitEnding(h: string)
    requires |h| > 0 && Decimal.IsDigit(h[|h| - 1])
    ensures !EndsWith(h, ServerErrorNote)
    ensures !EndsWith(h, ClientErrorNote)
  {
    assert |h| >= |ServerErrorNote| ==> h[|h| - |ServerErrorNote|..][|ServerErrorNote| - 1] == h[|h| - 1];
    assert |h| >= |ClientErrorNote| ==> h[|h| - |ClientErrorNote|..][|ClientErrorNote| - 1] == h[|h| - 1];
  }

  /** The structured context built for a logged request. */
  function Context(req: Request, resp: Response, durationMs: real): (ctx: HttpContext)
    ensures DescribesContext(ctx, req, resp, durationMs)
  {
    HttpContext(
      req.httpMethod,
      req.path,
      if req.query.items != [] then Some(req.query.text) else None,
      resp.statusCode,
      durationMs,
      match req.client case Some(c) => c.host case None => Unknown,
      if "user-agent" in req.headers then req.headers["user-agent"] else Unknown)
  }

  /** What the `http` context for `req` answered by `resp` must hold, field by field. */
  predicate DescribesContext(ctx: HttpContext, req: Request, resp: Response, durationMs: real)
  {
    && ctx.httpMethod == req.httpMethod
    && ctx.path == req.path
    && ctx.statusCode == resp.statusCode
    && ctx.durationMs == durationMs
    && (ctx.queryParams.None? <==> req.query.items == [])
    && (ctx.queryParams.Some? ==> ctx.queryParams.value == req.query.text)
    && (req.client.None? ==> ctx.clientIp == Unknown)
    && (req.client.Some? ==> ctx.clientIp == req.client.value.host)
    && ("user-agent" !in req.headers ==> ctx.userAgent == Unknown)
    && ("user-agent" in req.headers ==> ctx.userAgent == req.headers["user-agent"])
  }

  /** What the log entry for `req` answered by `resp` must say. */
  predicate Describes(e: LogEntry, req: Request, resp: Response, durationMs: real)
  {
    && e.level == Severity(resp.statusCode)
    && e.message == Message(req.httpMethod, req.path, resp.statusCode)
    && DescribesContext(e.http, req, resp, durationMs)
  }

  /**
    `dispatch`: the downstream response is returned unchanged, and a log entry
    describing the exchange is produced exactly when the path is not skipped.
   */
  function Dispatch(mw: HttpLoggingMiddleware, req: Request, callNext: Request -> Response, durationMs: real)
    : (out: (Response, Option<LogEntry>))
    ensures out.0 == callNext(req)
    ensures out.1.None? <==> req.path in mw.skipPaths
    ensures out.1.Some? ==> Describes(out.1.value, req, out.0, durationMs)
  {
    var resp := callNext(req);
    if req.path in mw.skipPaths then
      (resp, None)
    else
      var level := Severity(resp.statusCode);
      (resp, Some(LogEntry(level, Message(req.httpMethod, req.path, resp.statusCode), Context(req, resp, durationMs))))
  }

  /**
    Positions of the requests that are logged, in arrival order: every
    request whose path is not skipped, each once, and no other.
   */
  function LoggedIndices(mw: HttpLoggingMiddleware, reqs: seq<Request>): (ix: seq<nat>)
    ensures forall j :: 0 <= j < |ix| ==> ix[j] < |reqs| && reqs[ix[j]].path !in mw.skipPaths
    ensures forall j, k :: 0 <= j < k < |ix| ==> ix[j] < ix[k]
    ensures forall i :: 0 <= i < |reqs| && reqs[i].path !in mw.skipPaths ==> i in ix
    decreases |reqs|
  {
    if reqs == [] then []
    else
      var n := |reqs| - 1;
      var front := LoggedIndices(mw, reqs[..n]);
      LoggedIndicesExtend(mw, reqs, front);
      front + (if reqs[n].path in mw.skipPaths then [] else [n])
  }

  /** The indices of a prefix, followed by the last position when it is logged, are those of the whole. */
  lemma {:induction false} LoggedIndicesExtend(mw: HttpLoggingMiddleware, reqs: seq<Request>, front: seq<nat>)
    requires reqs != []
    requires forall j :: 0 <= j < |front| ==> front[j] < |reqs| - 1 && reqs[..|reqs| - 1][front[j]].path !in mw.skipPaths
    requires forall j, k :: 0 <= j < k < |front| ==> front[j] < front[k]
    requires forall i :: 0 <= i < |reqs| - 1 && reqs[..|reqs| - 1][i].path !in mw.skipPaths ==> i in front
    ensures var n := |reqs| - 1;
      var ix := front + (if reqs[n].path in mw.skipPaths then [] else [n]);
      && (forall j :: 0 <= j < |ix| ==> ix[j] < |reqs| && reqs[ix[j]].path !in mw.skipPaths)
      && (forall j, k :: 0 <= j < k < |ix| ==> ix[j] < ix[k])
      && (forall i :: 0 <= i < |reqs| && reqs[i].path !in mw.skipPaths ==> i in ix)
  {
    var n := |reqs| - 1;
    var ix := front + (if reqs[n].path in mw.skipPaths then [] else [n]);
    forall j | 0 <= j < |front|
      ensures ix[j] == front[j] && reqs[front[j]] == reqs[..n][front[j]]
    {
    }
    forall i | 0 <= i < n && reqs[i].path !in mw.skipPaths
      ensures i in front
    {
      assert reqs[..n][i] == reqs[i];
    }
  }

  /**
    A run of requests through the middleware: every request gets its
    downstream response, and the log holds, in arrival order, exactly the
    entries `Dispatch` produces for the requests whose path is not skipped.
   */
  function Serve(mw: HttpLoggingMiddleware, reqs: seq<Request>, callNext: Request -> Response, durations: seq<real>)
    : (out: (seq<Response>, seq<LogEntry>))
    requires |durations| == |reqs|
    ensures |out.0| == |reqs|
    ensures forall i :: 0 <= i < |reqs| ==> out.0[i] == callNext(reqs[i])
    ensures |out.1| == |LoggedIndices(mw, reqs)|
    ensures forall j :: 0 <= j < |out.1| ==>
      Dispatch(mw, reqs[LoggedIndices(mw, reqs)[j]], callNext, durations[LoggedIndices(mw, reqs)[j]]).1 == Some(out.1[j])
    decreases |reqs|
  {
    if reqs == [] then ([], [])
    else
      var n := |reqs| - 1;
      var (resps, log) := Serve(mw, reqs[..n], callNext, durations[..n]);
      var (resp, entry) := Dispatch(mw, reqs[n], callNext, durations[n]);
      var last := if entry.Some? then [entry.value] else [];
      ServeStep(mw, reqs, callNext, durations, resps, resp);
      ServeLogStep(mw, reqs, callNext, durations, log, last);
      (resps + [resp], log + last)
  }

  /** Appending the last response keeps responses aligned with requests. */
  lemma {:induction false} ServeStep(mw: HttpLoggingMiddleware, reqs: seq<Request>, callNext: Request -> Response,
                                     durations: seq<real>, resps: seq<Response>, resp: Response)
    requires reqs != [] && |durations| == |reqs|
    requires |resps| == |reqs| - 1
    requires forall i :: 0 <= i < |reqs| - 1 ==> resps[i] == callNext(reqs[..|reqs| - 1][i])
    requires resp == callNext(reqs[|reqs| - 1])
    ensures |resps + [resp]| == |reqs|
    ensures forall i :: 0 <= i < |reqs| ==> (resps + [resp])[i] == callNext(reqs[i])
  {
    var n := |reqs| - 1;
    forall i | 0 <= i < |reqs|
      ensures (resps + [resp])[i] == callNext(reqs[i])
    {
      if i < n {
        assert reqs[..n][i] == reqs[i];
      }
    }
  }

  /** Appending the last request's entry, if any, keeps the log aligned with the logged positions. */
  lemma {:induction false} ServeLogStep(mw: HttpLoggingMiddleware, reqs: seq<Request>, callNext: Request -> Response,
                                        durations: seq<real>, log: seq<LogEntry>, last: seq<LogEntry>)
    requires reqs != [] && |durations| == |reqs|
    requires var n := |reqs| - 1; var front := LoggedIndices(mw, reqs[..n]);
      && |log| == |front|
      && forall j :: 0 <= j < |log| ==>
        Dispatch(mw, reqs[..n][front[j]], callNext, durations[..n][front[j]]).1 == Some(log[j])
    requires var e := Dispatch(mw, reqs[|reqs| - 1], callNext, durations[|reqs| - 1]).1;
      last == if e.Some? then [e.value] else []
    ensures |log + last| == |LoggedIndices(mw, reqs)|
    ensures forall j :: 0 <= j < |log + last| ==>
      Dispatch(mw, reqs[LoggedIndices(mw, reqs)[j]], callNext, durations[LoggedIndices(mw, reqs)[j]]).1 == Some((log + last)[j])
  {
    var n := |reqs| - 1;
    var front := LoggedIndices(mw, reqs[..n]);
    var ix := LoggedIndices(mw, reqs);
    assert ix == front + (if reqs[n].path in mw.skipPaths then [] else [n]);
    forall j | 0 <= j < |log + last|
      ensures Dispatch(mw, reqs[ix[j]], callNext, durations[ix[j]]).1 == Some((log + last)[j])
    {
      if j < |log| {
        assert ix[j] == front[j] && (log + last)[j] == log[j];
        assert reqs[..n][front[j]] == reqs[front[j]];
        assert durations[..n][front[j]] == durations[front[j]];
      } else {
        assert ix[j] == n && (log + last)[j] == last[0];
      }
    }
  }

  /** With the default skip set, health and documentation paths are not logged and `/api` is. */
  lemma DefaultSkipSet(req: Request, callNext: Request -> Response, durationMs: real)
    ensures NewMiddleware(None).skipPaths == DefaultSkipPaths
    ensures NewMiddleware(Some({})).skipPaths == DefaultSkipPaths
    ensures req.path in {"/", "/health", "/docs", "/redoc", "/openapi.json"}
      ==> Dispatch(NewMiddleware(None), req, callNext, durationMs).1.None?
    ensures req.path == "/api" ==> Dispatch(NewMiddleware(None), req, callNext, durationMs).1.Some?
  {
  }
}

=== FILE: request_logging.dfy ===
/**
  How the middleware's log call reaches the JSON formatter: the `http`
  mapping passed as `extra` becomes an attribute of the record, and the
  formatter copies it into the line's `extra` object.
 */
module RequestLogging {
  import opened Wrappers
  import opened Values
  import Middleware
  import LoggingConfig
  import Levels
  import Config

  /** `logging.getLogger(__name__)` in the middleware module. */
  const MiddlewareLogger: string := "src.middleware"

  /** The `http` mapping of the middleware as a Python dictionary. */
  function ContextValue(ctx: Middleware.HttpContext): (v: Value)
    ensures v.Obj? && "status_code" in v.fields && v.fields["status_code"] == Int(ctx.statusCode)
    ensures "query_params" in v.fields && (v.fields["query_params"] == Null <==> ctx.queryParams.None?)
  {
    Obj(map[
      "method" := Str(ctx.httpMethod),
      "path" := Str(ctx.path),
      "query_params" := (match ctx.queryParams case Some(q) => Str(q) case None => Null),
      "status_code" := Int(ctx.statusCode),
      "duration_ms" := Float(ctx.durationMs),
      "client_ip" := Str(ctx.clientIp),
      "user_agent" := Str(ctx.userAgent)])
  }

  /**
    The record `logger.log(level, message, extra={"http": ...})` creates: the
    attributes `std` that `logging` sets from the call site, the logger's
    name and the level with its name, plus the `http` key.
   */
  function EntryRecord(e: Middleware.LogEntry, std: map<string, Value>): LoggingConfig.LogRecord
  {
    var attrs := std["name" := Str(MiddlewareLogger)]
      ["levelname" := Str(LoggingConfig.LevelName(e.level))]["levelno" := Int(e.level)];
    LoggingConfig.LogRecord(attrs["http" := ContextValue(e.http)], e.message)
  }

  /**
    For a request on a path that is not skipped, the formatted line carries
    the middleware's message, and its `extra` object holds the `http` context
    with the response's status code.
   */
  lemma LoggedRequestLine(mw: Middleware.HttpLoggingMiddleware, req: Middleware.Request,
                          callNext: Middleware.Request -> Middleware.Response, durationMs: real,
                          std: map<string, Value>, timestamp: string, service: string,
                          formatException: Value -> string)
    requires LoggingConfig.StandardAttrs <= std.Keys && "http" !in std
    requires req.path !in mw.skipPaths
    ensures var e := Middleware.Dispatch(mw, req, callNext, durationMs).1;
      && e.Some?
      && var line := LoggingConfig.Format(EntryRecord(e.value, std), timestamp, service, formatException);
      && line.message == Middleware.Message(req.httpMethod, req.path, callNext(req).statusCode)
      && line.level == Str(LoggingConfig.LevelName(Middleware.Severity(callNext(req).statusCode)))
      && line.logger == Str(MiddlewareLogger)
      && line.extra.Some? && "http" in line.extra.value
      && line.extra.value["http"] == ContextValue(e.value.http)
      && line.extra.value["http"].fields["status_code"] == Int(callNext(req).statusCode)
  {
    var e := Middleware.Dispatch(mw, req, callNext, durationMs).1.value;
    EntryLine(e, std, timestamp, service, formatException);
  }

  /** The formatted line of one entry's record: its message, level name, logger and `http` context. */
  lemma EntryLine(e: Middleware.LogEntry, std: map<string, Value>, timestamp: string, service: string,
                  formatException: Value -> string)
    requires LoggingConfig.StandardAttrs <= std.Keys && "http" !in std
    ensures LoggingConfig.WellFormed(EntryRecord(e, std))
    ensures var line := LoggingConfig.Format(EntryRecord(e, std), timestamp, service, formatException);
      && line.message == e.message
      && line.level == Str(LoggingConfig.LevelName(e.level))
      && line.logger == Str(MiddlewareLogger)
      && line.extra.Some? && "http" in line.extra.value
      && line.extra.value["http"] == ContextValue(e.http)
  {
    var rec := EntryRecord(e, std);
    assert rec.attrs["levelname"] == Str(LoggingConfig.LevelName(e.level));
    assert rec.attrs["name"] == Str(MiddlewareLogger);
    assert LoggingConfig.KeptAsExtra("http");
    assert "http" in LoggingConfig.ExtraFields(rec.attrs);
  }

  /** The middleware's logger has one ancestor, `src`, and no uvicorn logger on its lineage. */
  lemma MiddlewareLineage()
    ensures LoggingConfig.Lineage(MiddlewareLogger) == [MiddlewareLogger, "src"]
    ensures LoggingConfig.UvicornAccess !in LoggingConfig.Lineage(MiddlewareLogger)
    ensures LoggingConfig.UvicornError !in LoggingConfig.Lineage(MiddlewareLogger)
  {
    assert forall k :: 0 <= k < |MiddlewareLogger| && k != 3 ==> MiddlewareLogger[k] != '.';
    LoggingConfig.ParentAtOnlyDot(MiddlewareLogger, 3);
    assert MiddlewareLogger[..3] == "src";
    assert '.' !in "src";
  }

  /**
    Whether the request's line is written at all: after `setup_logging(level)`,
    a request that is not skipped produces a JSON line exactly when its
    severity reaches both the configured level and the effective level of
    `src.middleware`; with no level set on `src.middleware` or `src`, that is
    the configured level alone.
   */
  lemma RequestLineWritten(st: LoggingConfig.LoggingState, level: string,
                           mw: Middleware.HttpLoggingMiddleware, req: Middleware.Request,
                           callNext: Middleware.Request -> Middleware.Response, durationMs: real)
    requires req.path !in mw.skipPaths
    ensures var e := Middleware.Dispatch(mw, req, callNext, durationMs).1;
      var st' := LoggingConfig.SetupLogging(st, level);
      var severity := Middleware.Severity(callNext(req).statusCode);
      && e.Some? && e.value.level == severity
      && (LoggingConfig.WritesJsonLine(st', MiddlewareLogger, e.value.level)
          <==> severity >= LoggingConfig.LevelFromName(level)
               && severity >= LoggingConfig.EffectiveLevel(st', MiddlewareLogger))
      && (LoggingConfig.NoLevelOnAncestors(st, MiddlewareLogger)
          ==> (LoggingConfig.WritesJsonLine(st', MiddlewareLogger, e.value.level)
               <==> severity >= LoggingConfig.LevelFromName(level)))
  {
    var e := Middleware.Dispatch(mw, req, callNext, durationMs).1.value;
    MiddlewareLineage();
    LoggingConfig.SetupThreshold(st, level, MiddlewareLogger, e.level);
  }

  /**
    With `LOG_LEVEL=WARNING` only client and server errors can be written,
    and with `LOG_LEVEL=ERROR` only server errors: a successful request, or a
    404 under ERROR, never leaves a line. With no level set on
    `src.middleware` or `src`, every such error is written.
   */
  lemma LevelFilterDropsRequests(st: LoggingConfig.LoggingState,
                                 mw: Middleware.HttpLoggingMiddleware, req: Middleware.Request,
                                 callNext: Middleware.Request -> Middleware.Response, durationMs: real)
    requires req.path !in mw.skipPaths
    ensures var e := Middleware.Dispatch(mw, req, callNext, durationMs).1.value;
      var status := callNext(req).statusCode;
      && (LoggingConfig.WritesJsonLine(LoggingConfig.SetupLogging(st, "WARNING"), MiddlewareLogger, e.level) ==> status >= 400)
      && (LoggingConfig.WritesJsonLine(LoggingConfig.SetupLogging(st, "ERROR"), MiddlewareLogger, e.level) ==> status >= 500)
      && (LoggingConfig.NoLevelOnAncestors(st, MiddlewareLogger) && status >= 400
          ==> LoggingConfig.WritesJsonLine(LoggingConfig.SetupLogging(st, "WARNING"), MiddlewareLogger, e.level))
      && (LoggingConfig.NoLevelOnAncestors(st, MiddlewareLogger) && status >= 500
          ==> LoggingConfig.WritesJsonLine(LoggingConfig.SetupLogging(st, "ERROR"), MiddlewareLogger, e.level))
  {
    RequestLineWritten(st, "WARNING", mw, req, callNext, durationMs);
    RequestLineWritten(st, "ERROR", mw, req, callNext, durationMs);
    LoggingConfig.SettingLevels(Config.WARNING);
    LoggingConfig.SettingLevels(Config.ERROR);
  }
}

=== FILE: strings.dfy ===
/**
  The three Python string operations the endpoint conversion relies on:
  `str.startswith`, the substring test `p in s`, and `str.replace`.
  Strings are sequences of characters; a prefix test is Dafny's `p <= s`.
 */
module Strings {

  /** `s[i:i+len(p)] == p`: an occurrence of `p` starts at index `i` of `s`. */
  predicate OccursAt(s: string, p: string, i: int)
  {
    0 <= i && i + |p| <= |s| && s[i..i + |p|] == p
  }

  /** Python's `p in s` for strings. */
  predicate Contains(s: string, p: string)
  {
    exists i :: 0 <= i <= |s| && OccursAt(s, p, i)
  }

  /** Python's `s.endswith(p)`. */
  predicate EndsWith(s: string, p: string)
  {
    |p| <= |s| && s[|s| - |p|..] == p
  }

  /**
    Python's `s.replace(pat, rep)` for a non-empty pattern: scanning left to
    right, every occurrence of `pat` that does not overlap an earlier replaced
    one is replaced by `rep`. All occurrences are replaced, not only a prefix
    or a suffix.
   */
  function ReplaceAll(s: string, pat: string, rep: string): (r: string)
    requires pat != []
    ensures |rep| == |pat| ==> |r| == |s|
    ensures |rep| <= |pat| ==> |r| <= |s|
    ensures |rep| >= |pat| ==> |r| >= |s|
    decreases |s|
  {
    if s == [] then []
    else if pat <= s then rep + ReplaceAll(s[|pat|..], pat, rep)
    else [s[0]] + ReplaceAll(s[1..], pat, rep)
  }

  /** A one-character substring test is character membership. */
  lemma ContainsSingleton(s: string, c: char)
    ensures Contains(s, [c]) <==> c in s
  {
    if c in s {
      var i :| 0 <= i < |s| && s[i] == c;
      assert OccursAt(s, [c], i);
    }
    if Contains(s, [c]) {
      var i :| 0 <= i <= |s| && OccursAt(s, [c], i);
      assert s[i] == s[i..i + 1][0] == c;
    }
  }

  /** A string lacking one of the pattern's characters cannot contain the pattern. */
  lemma MissingCharNotContained(s: string, p: string, c: char)
    requires c in p && c !in s
    ensures !Contains(s, p)
  {
    var j :| 0 <= j < |p| && p[j] == c;
    forall i | 0 <= i <= |s|
      ensures !OccursAt(s, p, i)
    {
      if i + |p| <= |s| {
        assert s[i..i + |p|][j] == s[i + j] != c;
      }
    }
  }

  /** An occurrence in `s[k..]` is an occurrence in `s`. */
  lemma OccursInSuffix(s: string, p: string, k: nat, i: int)
    requires k <= |s| && OccursAt(s[k..], p, i)
    ensures OccursAt(s, p, i + k)
  {
    assert s[i + k..i + k + |p|] == s[k..][i..i + |p|];
  }

  /** Every occurrence in `s` that does not start at index 0 is one in `s[1..]`. */
  lemma OccursInTail(s: string, p: string, i: int)
    requires OccursAt(s, p, i) && i >= 1
    ensures OccursAt(s[1..], p, i - 1)
  {
    assert s[1..][i - 1..i - 1 + |p|] == s[i..i + |p|];
  }

  /** When `pat` does not occur in `s`, replacing it leaves `s` unchanged. */
  lemma {:induction false} ReplaceAllAbsent(s: string, pat: string, rep: string)
    requires pat != []
    requires !Contains(s, pat)
    ensures ReplaceAll(s, pat, rep) == s
    decreases |s|
  {
    if s != [] {
      assert !OccursAt(s, pat, 0);
      assert !(pat <= s);
      forall i | 0 <= i <= |s[1..]|
        ensures !OccursAt(s[1..], pat, i)
      {
        if OccursAt(s[1..], pat, i) {
          OccursInSuffix(s, pat, 1, i);
        }
      }
      ReplaceAllAbsent(s[1..], pat, rep);
      assert ReplaceAll(s, pat, rep) == [s[0]] + s[1..];
    }
  }

  /**
    With a replacement different from the pattern, `s.replace(pat, rep)`
    changes `s` exactly when `pat` occurs in it.
   */
  lemma {:induction false} ReplaceAllChangesIff(s: string, pat: string, rep: string)
    requires pat != [] && rep != pat
    ensures ReplaceAll(s, pat, rep) == s <==> !Contains(s, pat)
    decreases |s|
  {
    var r := ReplaceAll(s, pat, rep);
    if !Contains(s, pat) {
      ReplaceAllAbsent(s, pat, rep);
    } else if pat <= s {
      if |rep| == |pat| {
        assert r[..|pat|] == rep;
        assert r[..|pat|] != s[..|pat|];
      } else {
        assert |r| != |s|;
      }
    } else {
      var i :| 0 <= i <= |s| && OccursAt(s, pat, i);
      assert !OccursAt(s, pat, 0);
      OccursInTail(s, pat, i);
      ReplaceAllChangesIff(s[1..], pat, rep);
      assert r[1..] == ReplaceAll(s[1..], pat, rep);
      assert r[1..] != s[1..];
    }
  }

  /** Removing the pattern from a string that starts with it removes at least its length. */
  lemma StripLeadingShortens(s: string, pat: string)
    requires pat != [] && pat <= s
    ensures |ReplaceAll(s, pat, [])| <= |s| - |pat|
  {
  }

  /**
    A leading occurrence is consumed first: `(pat + t).replace(pat, rep)`
    is `rep + t.replace(pat, rep)`.
   */
  lemma ReplaceAllLeading(pat: string, t: string, rep: string)
    requires pat != []
    ensures ReplaceAll(pat + t, pat, rep) == rep + ReplaceAll(t, pat, rep)
  {
    assert pat <= pat + t;
    assert (pat + t)[|pat|..] == t;
  }

  /** A first character that does not start the pattern is kept, and the scan moves on. */
  lemma ReplaceAllSkip(c: char, t: string, pat: string, rep: string)
    requires pat != [] && !(pat <= [c] + t)
    ensures ReplaceAll([c] + t, pat, rep) == [c] + ReplaceAll(t, pat, rep)
  {
    assert ([c] + t)[1..] == t;
  }
}

=== FILE: values.dfy ===
/**
  The Python values a log record can carry, and what `json.dumps(...,
  default=str)` does with them: JSON-native values pass through, and any other
  object is replaced by its `str()` form, so serialisation never fails.
 */
module Values {

  /**
    `Opaque` is an object that is not JSON-native (a datetime, an exception, a
    custom class); it carries its `str()` text.
   */
  datatype Value =
    | Null
    | Bool(b: bool)
    | Int(i: int)
    | Float(x: real)
    | Str(s: string)
    | List(items: seq<Value>)
    | Obj(fields: map<string, Value>)
    | Opaque(text: string)

  /** Python truthiness; a plain object is truthy. */
  predicate Truthy(v: Value)
  {
    match v
    case Null => false
    case Bool(b) => b
    case Int(i) => i != 0
    case Float(x) => x != 0.0
    case Str(s) => s != ""
    case List(items) => items != []
    case Obj(fields) => fields != map[]
    case Opaque(_) => true
  }

  /** A value `json.dumps` can serialise without calling `default`. */
  predicate Native(v: Value)
  {
    match v
    case Opaque(_) => false
    case List(items) => forall i :: 0 <= i < |items| ==> Native(items[i])
    case Obj(fields) => forall k :: k in fields ==> Native(fields[k])
    case _ => true
  }

  /**
    The value `json.dumps(v, default=str)` actually writes: every non-native
    object, at any depth, becomes the string `str(obj)`. The result is always
    native, and native values are left as they are.
   */
  function Coerce(v: Value): (r: Value)
    ensures Native(r)
    ensures Native(v) ==> r == v
  {
    match v
    case Opaque(text) => Str(text)
    case List(items) => List(seq(|items|, i requires 0 <= i < |items| => Coerce(items[i])))
    case Obj(fields) => Obj(map k | k in fields :: Coerce(fields[k]))
    case _ => v
  }

  /** Coercing twice is coercing once. */
  lemma CoerceIdempotent(v: Value)
    ensures Coerce(Coerce(v)) == Coerce(v)
  {
  }

  /** A non-native object and its `str()` text serialise identically. */
  lemma OpaqueAsString(text: string)
    ensures Coerce(Opaque(text)) == Coerce(Str(text))
  {
  }

  /** Coercion keeps the keys of a mapping and coerces each value. */
  lemma CoerceObject(fields: map<string, Value>)
    ensures Coerce(Obj(fields)).Obj?
    ensures Coerce(Obj(fields)).fields.Keys == fields.Keys
    ensures forall k :: k in fields ==> Coerce(Obj(fields)).fields[k] == Coerce(fields[k])
  {
  }
}

=== FILE: wrappers.dfy ===
/** Optional values, standing in for Python's `None`. */
module Wrappers {

  datatype Option<+T> = None | Some(value: T) {

    /** The carried value, or `default` when there is none (Python's `x if x is not None else default`). */
    function GetOr(default: T): T
    {
      match this
      case Some(v) => v
      case None => default
    }
  }
}
